=== FILE: README.md ===
# PixelPlay Avi — a Dafny model of the game, profile and focus-timer logic

PixelPlay Avi is an iOS app built around a grid-matching puzzle. The player repaints the tiles of an n×n grid until it matches a randomly generated target. They can use four kinds of power-up, and the game runs against a one-second countdown. Around the puzzle sit three further pieces:

- a player profile that keeps running statistics and unlocks point-bearing achievements;
- a "focus time" utility, a Pomodoro-style timer with daily and weekly goals and a day streak;
- onboarding screens that parse `#rrggbb` colour strings and play a small demo animation.

This project models that logic as immutable Dafny values and pure transitions, and proves properties of it. The modules follow the app's source files:

| module | file | models |
|---|---|---|
| `Prelude` | prelude.dfy | optional values, calendar days of a second timestamp, clamping |
| `TextFormat` | text_format.dfy | `%d` / `%02d` rendering and a reader that gives a clock or duration string its number of seconds or minutes back |
| `GameModel` | game_model.dfy | `GameDifficulty`, `GameSession`: difficulty tables, pattern generation, moves, power-ups, the timer tick, scoring |
| `UserModel` | user_model.dfy | `AchievementType`, `GameStatistics`, `FocusSession`, `UserProfile`: statistics, achievements, points |
| `UtilitiesViewModel` | utilities_view_model.dfy | the focus-timer screen: session lifecycle, tick, goal ratios, streak, settings, figures and strings |
| `GameViewModel` | game_view_model.dfy | the game screen: guarded player actions, per-game counters, per-game achievements, tile lookups, completion percentage |
| `Onboarding` | onboarding.dfy | `Color.init(hex:)` (integer channels) and `DemoGameState.animateNextTile` |

How the app's effects are represented:

- **Time.** A `Date()` is an `int` number of seconds, passed in as a parameter (`now`, `playedAt`). `TimeInterval`s only ever change by whole seconds, so they are `int`s too. A calendar day is `Day(t) = t / 86400`.
- **Timers.** A repeating `Timer` is a boolean flag: `timerRunning` in `GameModel.Session`, `timerScheduled` in `UtilitiesViewModel.FocusState`. Starting or resuming sets the flag; invalidating the timer clears it. One firing of the timer is the explicit step `Tick`, and `Tick` does nothing while the flag is clear.
- **Randomness.** `Double.random` draws are an n×n `seq<seq<real>>` parameter.
- **Combine subscription.** The subscription that reacts to session changes becomes the explicit step `GameViewModel.HandleGameStateChange`.
- **Ratios.** Ratios and averages are `real`s.

Behaviour of the code that a reader might not expect, kept as written:

- **Streak at start.** A new `GameSession` starts with `currentStreak == 0` (GameModel.swift:125); it is not taken from the player's profile. The score's streak bonus is therefore 0 unless a session is won more than once, which the unguarded pause and resume below make possible.
- **Finished games are not protected.** `pauseGame`, `resumeGame` and `usePowerUp` have no state guard (GameModel.swift:204-212, 239). A won or lost session can be put back into play; `GameModel.FinishedGameCanBeResumed` shows this.
- **Custom focus length.** `UserProfile.startFocusSession` uses `duration ?? type.defaultDuration`, with no custom-length branch (UserModel.swift:267). The view model's version does have one (UtilitiesViewModel.swift:79).
- **Today's focus total.** `updateFocusStatistics` adds the session to `totalFocusTimeToday`, then `calculateDailyProgress` overwrites that sum with a recount of the history (UtilitiesViewModel.swift:249-266). The model keeps the recount.
- **Timer left running.** `completeFocusSession` of the view model does not invalidate its timer (UtilitiesViewModel.swift:143-177). The model keeps `timerScheduled` set, and `UtilitiesViewModel.TicksAfterCompletionHarmless` shows that the later ticks change nothing.

## Model

| member | source | states |
|---|---|---|
| GameModel.HarderIsHarder | dafoma_31/Models/GameModel.swift:18-34 | a harder difficulty has a strictly larger grid (4/5/6/7), strictly less time (120/90/60/45 s), and no more of any power-up |
| GameModel.ColorOfDraw | dafoma_31/Models/GameModel.swift:160-170 | a draw below 0.4 gives primary, [0.4, 0.7) secondary, [0.7, 0.85) accent, the rest neutral; never background |
| GameModel.MoveBudget | dafoma_31/Models/GameModel.swift:175 | the move budget is 1.5·n² rounded down |
| GameModel.MoveBudgets | dafoma_31/Models/GameModel.swift:175 | the four difficulties get 24, 37, 54 and 73 moves |
| GameModel.GeneratePattern | dafoma_31/Models/GameModel.swift:153-179 | the target is gridSize×gridSize; each cell's colour depends only on that cell's draw and is never background; the pattern records its difficulty and move budget |
| GameModel.EmptyGrid | dafoma_31/Models/GameModel.swift:181-197 | n×n tiles, all background and unflagged, and tile [r][c] knows its position (r, c) |
| GameModel.NewSession | dafoma_31/Models/GameModel.swift:130-151 | a new session is well formed and not started; the clock holds the time limit, the power-ups hold the difficulty's allowances, all counters are 0, and its first wrong cell is (0, 0) |
| GameModel.FirstMismatch | dafoma_31/Models/GameModel.swift:289-301 | the scan finds the first cell, in row-major order, whose colour differs from the target; it finds none exactly when the whole grid matches |
| GameModel.StartGame | dafoma_31/Models/GameModel.swift:199-202 | the session is playing with its timer scheduled; nothing else changes |
| GameModel.PauseGame | dafoma_31/Models/GameModel.swift:204-207 | from any state the session becomes paused with its timer invalidated; nothing else changes |
| GameModel.ResumeGame | dafoma_31/Models/GameModel.swift:209-212 | from any state the session becomes playing with its timer scheduled; nothing else changes |
| GameModel.EndGame | dafoma_31/Models/GameModel.swift:303-323 | the timer stops; a win scores 10·n² + 2·time left + max(0, 5·(budget − moves used)) − 10·hints + 50·streak, using the streak before it is incremented, then adds 1 to the streak; a loss zeroes the streak and keeps the score |
| GameModel.Score | dafoma_31/Models/GameModel.swift:315-323 | the move bonus counts only while moves are left: at or over the budget the score is 10·n² + 2·time left − 10·hints + 50·streak, under it 5 points more per unused move |
| GameModel.ScoreMonotone | dafoma_31/Models/GameModel.swift:315-323 | on the same grid, more time left, fewer moves, fewer hints or a longer streak never lower the score; each second left is worth 2 and each hint costs 10 |
| GameModel.ScoreWorkedExample | dafoma_31/Models/GameModel.swift:315-322 | easy grid, 53 s left, 10 of 24 moves used, 1 hint, streak 2: the score is 426 and the streak becomes 3 |
| GameModel.Tick | dafoma_31/Models/GameModel.swift:214-225 | without a scheduled timer nothing happens; with time left the clock drops by exactly one second; at zero the game is lost |
| GameModel.ClockRunsOut | dafoma_31/Models/GameModel.swift:214-225 | from t seconds, t ticks bring the clock to 0 with nothing else changed, and one more tick fails the game and zeroes the streak |
| GameModel.PausedClockStands | dafoma_31/Models/GameModel.swift:204-207 | after a pause, any number of ticks leave the session as it is |
| GameModel.SetColor | dafoma_31/Models/GameModel.swift:230 | exactly the chosen tile takes the new colour and keeps its flags; every other tile is unchanged |
| GameModel.MakeMove | dafoma_31/Models/GameModel.swift:227-237 | outside playing nothing changes; in play the tile is recoloured, the move counted, and the game is won exactly when the grid now matches the target (scored with the new move count); otherwise it stays in play |
| GameModel.MoveCountsEvenWithoutChange | dafoma_31/Models/GameModel.swift:227-237 | repeating a move leaves the grid as it was but still costs a move |
| GameModel.RevealHint | dafoma_31/Models/GameModel.swift:256-270 | the hint is always counted; no colour changes; only the first wrong tile may gain its hint flag, and it always has the flag afterwards; on a matching grid only the hint count changes |
| GameModel.HintTwiceSameTile | dafoma_31/Models/GameModel.swift:256-270 | a second hint without a move in between marks the same tile, so the grid is unchanged and two hints are counted |
| GameModel.ClearIncorrect | dafoma_31/Models/GameModel.swift:276-287 | tiles that match or are background are untouched; afterwards every tile matches or is background; only colours change |
| GameModel.ClearIncorrectIdempotent | dafoma_31/Models/GameModel.swift:276-287 | clearing twice is clearing once |
| GameModel.UsePowerUp | dafoma_31/Models/GameModel.swift:239-254 | an exhausted type changes nothing; otherwise only that type's count drops by 1, in any game state. Time boost adds 15 s, hint reveal reveals a hint, colour match changes nothing, grid clear clears the wrong tiles |
| GameModel.PowerUpExhaustion | dafoma_31/Models/GameModel.swift:239-242 | using a type as many times as it is available brings its count to 0, after which one more use is a no-op |
| GameModel.ClockStaysNonNegative | dafoma_31/Models/GameModel.swift:214-254 | no tick, move, power-up or game end takes a non-negative clock below zero |
| GameModel.FinishedGameCanBeResumed | dafoma_31/Models/GameModel.swift:204-237 | a won game ignores moves, but pausing and resuming it puts it back into play, and the next move is then counted |
| UserModel.InitializeAchievements | dafoma_31/Models/UserModel.swift:236-240 | eight achievements, one per type at the type's position, all locked with progress 0 |
| UserModel.GameStatistics.WinRate | dafoma_31/Models/UserModel.swift:155-158 | 0 before the first game, otherwise wins per game played, hence within [0, 1] |
| UserModel.GameStatistics.AverageScore | dafoma_31/Models/UserModel.swift:160-163 | 0 before the first win, otherwise the best score divided by the number of wins |
| UserModel.FocusSession.RemainingTime | dafoma_31/Models/UserModel.swift:175-178 | never negative; 0 for a completed session or one without an end; otherwise the seconds until the end time, 0 once it has passed |
| UserModel.ProgressMatchesRule | dafoma_31/Models/UserModel.swift:327-359 | progress lies in [0, 1]; for first win, streak master, focus guru and daily player it reaches 1 exactly when the unlock rule holds |
| UserModel.CheckAchievements | dafoma_31/Models/UserModel.swift:319-367 | unlocked achievements are left untouched; each locked one keeps its type, is unlocked (dated now) exactly when its rule holds, and records its progress |
| UserModel.UnlockIsPermanent | dafoma_31/Models/UserModel.swift:319-322 | an achievement once unlocked survives any later evaluation unchanged |
| UserModel.StreakMasterSticks | dafoma_31/Models/UserModel.swift:340-342 | streak master unlocks once the longest streak reaches 10 and stays unlocked whatever the later statistics |
| UserModel.StubbedRulesNeverUnlock | dafoma_31/Models/UserModel.swift:336-358 | perfectionist, power-up master and weekly champion are never unlocked by the profile's evaluation |
| UserModel.SpeedRunnerUnlocksWithFirstWin | dafoma_31/Models/UserModel.swift:332-333 | while the average completion time is still 0, speed runner's rule holds exactly when first win's does |
| UserModel.UnlockedAchievements | dafoma_31/Models/UserModel.swift:369-371 | exactly the unlocked achievements are kept |
| UserModel.UnlockedAppend | dafoma_31/Models/UserModel.swift:369-371 | the filter keeps order and multiplicity: filtering a concatenation is filtering each part and concatenating |
| UserModel.UnlockedExtremes | dafoma_31/Models/UserModel.swift:369-371 | with every achievement unlocked the whole list is kept; with none, nothing is |
| UserModel.TotalAchievementPoints | dafoma_31/Models/UserModel.swift:373-377 | the unlocked achievements' points: 0 with none unlocked, every achievement's points with all unlocked, and never more than that |
| UserModel.PointsMonotone | dafoma_31/Models/UserModel.swift:373-377 | if every achievement unlocked in one list is unlocked in another, the second list's point total is at least the first's |
| UserModel.CheckNeverLosesPoints | dafoma_31/Models/UserModel.swift:319-377 | evaluating achievements never lowers the point total |
| UserModel.PointTotals | dafoma_31/Models/UserModel.swift:114-125 | the eight achievements are worth 2850 points together; a new profile's total is 0 |
| UserModel.RecordGame | dafoma_31/Models/UserModel.swift:242-258 | games played +1; time played + (limit − time left); a win adds a win, keeps the best score and extends the streak; any other result zeroes the streak; streak ≤ longest streak is preserved; hints and power-ups are added; the favourite mode is kept |
| UserModel.UpdateConsecutiveDays | dafoma_31/Models/UserModel.swift:298-317 | only the day count changes; it is 1 without an earlier play, unchanged on the same day, and reset to 1 whenever the stored date is on another day (never incremented) |
| UserModel.UpdateStatistics | dafoma_31/Models/UserModel.swift:242-264 | every statistics field except the last play date and the day count is exactly as `UserModel.RecordGame` states; the last play date becomes the play time, the day count is unchanged when the two clock readings fall on the same day and 1 otherwise, and achievements are re-evaluated against the new statistics |
| UserModel.ConsecutiveDaysAsWrittenCounterexample | dafoma_31/Models/UserModel.swift:298-317 | a player on a three-day run who plays on the next day still has 3 consecutive days |
| UserModel.AverageCompletionTimeNeverChanges | dafoma_31/Models/UserModel.swift:242-264 | however many games are recorded, the average completion time keeps its initial value |
| UserModel.PowerUpCountOffset | dafoma_31/Models/UserModel.swift:255-258 | the source's count exceeds the true number of uses by 12 minus the difficulty's allowance; a fresh expert session counts 10, a fresh easy one 1 |
| UserModel.CorrectedCountsEachUse | dafoma_31/Models/UserModel.swift:239-242 | counted against the allowance, each effective power-up use adds exactly one |
| UserModel.NextConsecutiveDays | dafoma_31/Models/UserModel.swift:298-317 | the intended day rule: 1 without an earlier play, unchanged on the same day, +1 on the next day, back to 1 after a gap |
| UserModel.UpdateStatisticsCorrected | dafoma_31/Models/UserModel.swift:242-264 | the corrected update compares against the previous play date and counts power-ups against the allowance |
| UserModel.ConsecutiveDayScenarios | dafoma_31/Models/UserModel.swift:298-317 | corrected: playing the next day adds one, three days later resets to 1, later on the same day keeps the count |
| UserModel.StartFocusSession | dafoma_31/Models/UserModel.swift:266-277 | a not-completed session of the given type starting now, with the supplied length or the type's preset and an end that far ahead; nothing else changes |
| UserModel.CompleteFocusSession | dafoma_31/Models/UserModel.swift:279-296 | without a session nothing changes; otherwise exactly one completed record with the original length is appended, the length is added to the focus total, the session is cleared and achievements re-evaluated |
| UserModel.FocusHourUnlocksGuru | dafoma_31/Models/UserModel.swift:348-350 | completing a one-hour session unlocks a still-locked focus guru and logs one completed session |
| TextFormat.ReadDecimal | dafoma_31/ViewModels/UtilitiesViewModel.swift:341 | reading back a rendered number gives the number |
| TextFormat.ReadMinutesSeconds | dafoma_31/ViewModels/GameViewModel.swift:371 | "m:ss" reads back as m·60 + s seconds |
| UtilitiesViewModel.Select | dafoma_31/ViewModels/UtilitiesViewModel.swift:260-262 | exactly the sessions of the history that are counted in the window |
| UtilitiesViewModel.TotalAppend | dafoma_31/ViewModels/UtilitiesViewModel.swift:260-266 | appending a session adds its length to the total of every window it is counted in, and nothing elsewhere |
| UtilitiesViewModel.IncompleteNeverCounts | dafoma_31/ViewModels/UtilitiesViewModel.swift:276-278 | a session that was not completed adds nothing to any total |
| UtilitiesViewModel.Ratio | dafoma_31/ViewModels/UtilitiesViewModel.swift:268 | min(1, total / goal): at most 1, not negative for a non-negative total, equal to 1 exactly when the goal is reached |
| UtilitiesViewModel.CalculateDailyProgress | dafoma_31/ViewModels/UtilitiesViewModel.swift:256-269 | today's total is the completed focus that started today, the daily ratio is that total over the goal; nothing else changes |
| UtilitiesViewModel.CalculateWeeklyProgress | dafoma_31/ViewModels/UtilitiesViewModel.swift:271-285 | the weekly ratio is the completed focus of the last seven days over the goal; nothing else changes |
| UtilitiesViewModel.StreakFrom | dafoma_31/ViewModels/UtilitiesViewModel.swift:287-310 | every day of the last r days up to the given one has a completed session, and the day before them has none |
| UtilitiesViewModel.DayHasSessions | dafoma_31/ViewModels/UtilitiesViewModel.swift:297-299 | true exactly when some completed session started within the day's bounds |
| UtilitiesViewModel.UpdateFocusStreak | dafoma_31/ViewModels/UtilitiesViewModel.swift:287-310 | the backward walk returns the length of the run of days ending today that each have a completed session; 0 when today has none |
| UtilitiesViewModel.NewFocusState | dafoma_31/ViewModels/UtilitiesViewModel.swift:70-75 | no session and no timer; default settings 600/1800/7200; the stored history; today's total and both ratios computed for now; the streak starts at 0 without looking at the history, the type is the game session and the completion overlay is hidden |
| UtilitiesViewModel.Start | dafoma_31/ViewModels/UtilitiesViewModel.swift:78-98 | a not-completed session starting now with the supplied length, else the custom setting for custom sessions, else the preset; the countdown holds that length; the timer runs and the type is selected; nothing else changes |
| UtilitiesViewModel.Pause | dafoma_31/ViewModels/UtilitiesViewModel.swift:100-106 | only the running flag and the timer stop; the countdown and the session stay |
| UtilitiesViewModel.Resume | dafoma_31/ViewModels/UtilitiesViewModel.swift:108-116 | without a session nothing changes; otherwise only the running flag and the timer restart |
| UtilitiesViewModel.Stop | dafoma_31/ViewModels/UtilitiesViewModel.swift:118-141 | with a session exactly one not-completed record lasting from its start to now is appended; always no session, countdown 0, not running; the history grows by at most one; nothing else changes (totals, ratios and streak are not recomputed) |
| UtilitiesViewModel.StopNeverCounts | dafoma_31/ViewModels/UtilitiesViewModel.swift:118-141 | stopping adds nothing to any focus total |
| UtilitiesViewModel.Complete | dafoma_31/ViewModels/UtilitiesViewModel.swift:143-177 | without a session nothing changes; otherwise one completed record with the requested length is appended, the session cleared, the countdown zeroed, the overlay shown, and today's total, both ratios (against the unchanged goals) and the streak recomputed; nothing else changes, the timer flag included |
| UtilitiesViewModel.CompleteCountsToday | dafoma_31/ViewModels/UtilitiesViewModel.swift:143-162 | completing a session started today adds its length to today's total and makes the streak at least one day |
| UtilitiesViewModel.Tick | dafoma_31/ViewModels/UtilitiesViewModel.swift:180-191 | without a scheduled timer nothing changes; with time left the countdown drops by one; at zero the session completes |
| UtilitiesViewModel.CountDown | dafoma_31/ViewModels/UtilitiesViewModel.swift:180-191 | k + 1 ticks from a countdown of k complete the session at the last tick |
| UtilitiesViewModel.RunToCompletion | dafoma_31/ViewModels/UtilitiesViewModel.swift:78-191 | a session of d seconds left alone is logged as completed after d + 1 ticks, and the screen returns to no session |
| UtilitiesViewModel.TicksAfterCompletionHarmless | dafoma_31/ViewModels/UtilitiesViewModel.swift:143-191 | with no session and the countdown at zero, further ticks of the still-scheduled timer change nothing |
| UtilitiesViewModel.PausedSessionStands | dafoma_31/ViewModels/UtilitiesViewModel.swift:100-106 | a paused session stands still however many seconds pass |
| UtilitiesViewModel.UpdateCustomDuration | dafoma_31/ViewModels/UtilitiesViewModel.swift:379-381 | the custom length is the requested one clamped to [60, 7200]; nothing else changes |
| UtilitiesViewModel.UpdateDailyGoal | dafoma_31/ViewModels/UtilitiesViewModel.swift:383-386 | the daily goal is the requested one clamped to [300, 14400]; today's total is recounted from the history and the daily ratio follows; nothing else changes |
| UtilitiesViewModel.UpdateWeeklyGoal | dafoma_31/ViewModels/UtilitiesViewModel.swift:388-391 | the weekly goal is the requested one clamped to [1800, 50400] and the weekly ratio follows it; nothing else changes |
| UtilitiesViewModel.SettersIdempotent | dafoma_31/ViewModels/UtilitiesViewModel.swift:379-391 | setting a value twice is setting it once, for all three settings |
| UtilitiesViewModel.AverageFocusTime | dafoma_31/ViewModels/UtilitiesViewModel.swift:362-368 | 0 without completed sessions, otherwise their total length per completed session |
| UtilitiesViewModel.LongestCompleted | dafoma_31/ViewModels/UtilitiesViewModel.swift:370-372 | none exactly when nothing is completed; otherwise the length of a completed session that no completed session exceeds |
| UtilitiesViewModel.LongestFocusSession | dafoma_31/ViewModels/UtilitiesViewModel.swift:370-372 | 0 without completed sessions; otherwise the length of some completed session and never below any completed session's length |
| UtilitiesViewModel.TotalFocusTime | dafoma_31/ViewModels/UtilitiesViewModel.swift:374-376 | 0 without completed sessions, and not negative when no length is |
| UtilitiesViewModel.TotalFocusTimeAppend | dafoma_31/ViewModels/UtilitiesViewModel.swift:374-376 | logging one more session adds its length exactly when it was completed |
| UtilitiesViewModel.FocusSessionsToday | dafoma_31/ViewModels/UtilitiesViewModel.swift:353-360 | exactly the sessions, finished or not, that started today |
| UtilitiesViewModel.ClearFocusHistory | dafoma_31/ViewModels/UtilitiesViewModel.swift:398-407 | the history is empty and today's total, the streak and both ratios are 0; the running session is kept |
| UtilitiesViewModel.ClearedHistoryFigures | dafoma_31/ViewModels/UtilitiesViewModel.swift:398-407 | after clearing, every figure derived from the history is 0 |
| UtilitiesViewModel.FormattedTime | dafoma_31/ViewModels/UtilitiesViewModel.swift:326-336 | from an hour up "h:mm:ss", below it "m:ss": a leading number without leading zeros, then two-digit fields below 60; read back, it is the same number of seconds, so the string is determined |
| UtilitiesViewModel.FormattedMs | dafoma_31/ViewModels/UtilitiesViewModel.swift:334 | "m:ss" reads back as m·60 + s and has one colon |
| UtilitiesViewModel.FormattedHms | dafoma_31/ViewModels/UtilitiesViewModel.swift:332 | "h:mm:ss" reads back as (h·60 + m)·60 + s and has two colons |
| UtilitiesViewModel.FormattedDuration | dafoma_31/ViewModels/UtilitiesViewModel.swift:338-351 | "N min" below an hour, "H hr" on a whole hour, otherwise "H hr M min" with M below 60, numbers without leading zeros; read back, it is the whole number of minutes, so the string is determined |
| GameViewModel.NewGameVM | dafoma_31/ViewModels/GameViewModel.swift:12-43 | no game, and no action is accepted |
| GameViewModel.StartNewGame | dafoma_31/ViewModels/GameViewModel.swift:50-65 | a new session of the difficulty, already playing with the full time limit; actions are accepted; the counters are zeroed and the game-over overlay hidden; nothing else changes |
| GameViewModel.Pause | dafoma_31/ViewModels/GameViewModel.swift:67-71 | the session is paused whatever its state, the pause menu shows, and actions stop being accepted; nothing else changes |
| GameViewModel.Resume | dafoma_31/ViewModels/GameViewModel.swift:73-77 | the session resumes whatever its state, the pause menu hides, and actions are accepted; nothing else changes |
| GameViewModel.EndGame | dafoma_31/ViewModels/GameViewModel.swift:79-94 | actions stop; no session, no selection, no achievement and every overlay hidden; nothing else changes |
| GameViewModel.PauseResumeRoundTrip | dafoma_31/ViewModels/GameViewModel.swift:67-77 | pausing twice is pausing once, and resuming undoes a pause of a running game |
| GameViewModel.FastestSolveAsWritten | dafoma_31/ViewModels/GameViewModel.swift:117 | as written, the recorded solve time is the session's whole time limit, whatever is left on the clock; 0 without a session |
| GameViewModel.FastestSolve | dafoma_31/ViewModels/GameViewModel.swift:117 | corrected: the recorded solve time plus the time left is the time limit; 0 without a session |
| GameViewModel.FastestSolveAsWrittenIgnoresClock | dafoma_31/ViewModels/GameViewModel.swift:117 | as written, the recorded solve time is the whole time limit, which differs from the time taken whenever time was left |
| GameViewModel.FastestSolveCounterexample | dafoma_31/ViewModels/GameViewModel.swift:117 | an easy game won with 100 of 120 seconds left records 120 instead of 20 |
| GameViewModel.SessionUnlocks | dafoma_31/ViewModels/GameViewModel.swift:278-297 | speed runner exactly when the game took at most 30 s; perfectionist exactly when no hint was used; power-up master exactly when at least four power-ups were used in total; nothing else, in that order |
| GameViewModel.CheckForAchievements | dafoma_31/ViewModels/GameViewModel.swift:278-311 | without a session nothing changes; otherwise the last earned achievement is the one shown, unlocked at now with progress 1 |
| GameViewModel.PowerUpMasterPoolsTypes | dafoma_31/ViewModels/GameViewModel.swift:293-295 | four uses of one single power-up type earn power-up master |
| GameViewModel.HandleGameCompletion | dafoma_31/ViewModels/GameViewModel.swift:111-129 | actions stop and the game-over screen shows; a win shows the congratulation, records the corrected solve time (time limit minus time left) keeping the other counters, and shows the last achievement the game earned, unlocked now, or leaves the display as it was when it earned none; a loss shows the time-up message and keeps the counters; nothing else changes |
| GameViewModel.HandleGameStateChange | dafoma_31/ViewModels/GameViewModel.swift:96-109 | a won or lost session is handled as a completion, a paused one shows the pause menu, anything else changes nothing |
| GameViewModel.FinishedGameBlocksActions | dafoma_31/ViewModels/GameViewModel.swift:96-192 | after a finished game is handled, selecting, colouring, power-ups and hints all change nothing |
| GameViewModel.SelectTile | dafoma_31/ViewModels/GameViewModel.swift:132-146 | outside an active game nothing changes; otherwise only the selection is set |
| GameViewModel.ApplyColor | dafoma_31/ViewModels/GameViewModel.swift:148-162 | outside an active game nothing changes; otherwise the move is made, the selection cleared, and a perfect move counted exactly when the colour is the target's; nothing else changes |
| GameViewModel.UsePowerUp | dafoma_31/ViewModels/GameViewModel.swift:164-184 | outside an active game nothing changes; otherwise the session uses the power-up and the per-game count of that type goes up by one even when none was left, the menu closes, a hint reveal shows the hint, and nothing else changes |
| GameViewModel.UseHint | dafoma_31/ViewModels/GameViewModel.swift:186-192 | outside an active game nothing changes; otherwise the session uses a hint reveal and the per-game hint count goes up by one, the hint shows, and nothing else changes |
| GameViewModel.ExhaustedHintStillCounted | dafoma_31/ViewModels/GameViewModel.swift:186-192 | with no hint reveal left the session is untouched but the hint is still counted |
| GameViewModel.TileColorAt | dafoma_31/ViewModels/GameViewModel.swift:314-322 | the tile's colour inside the grid; background past the grid or without a game |
| GameViewModel.TargetColorAt | dafoma_31/ViewModels/GameViewModel.swift:324-332 | the target colour inside the target; background past it or without a game |
| GameViewModel.IsTileHinted | dafoma_31/ViewModels/GameViewModel.swift:338-346 | true exactly for a hinted tile inside the grid of the current session |
| GameViewModel.OutsideGridIsCorrect | dafoma_31/ViewModels/GameViewModel.swift:314-336 | past the grid a tile always counts as correct and never as hinted |
| GameViewModel.InsideGridCorrectness | dafoma_31/ViewModels/GameViewModel.swift:334-336 | inside the grid a tile is correct exactly when it shows its target colour |
| GameViewModel.CountCorrectInRow | dafoma_31/ViewModels/GameViewModel.swift:355-359 | the loop counts exactly the correct tiles of the row |
| GameViewModel.CompletionPercentage | dafoma_31/ViewModels/GameViewModel.swift:348-363 | 0 without a game; otherwise correct tiles / n², within [0, 1], and exactly 1 when the grid matches its target |
| GameViewModel.FormattedTime | dafoma_31/ViewModels/GameViewModel.swift:365-372 | "0:00" without a game; always "m:ss", a leading number without leading zeros and a two-digit field below 60; read back, it is the seconds left, so the string is determined |
| Onboarding.Trim | dafoma_31/Views/OnboardingView.swift:541 | the result is a slice of the input with only non-alphanumerics before and after it; it starts and ends with a letter or digit and is empty exactly when the input has none |
| Onboarding.TrimKeepsAlnumEnds | dafoma_31/Views/OnboardingView.swift:541 | a string already starting and ending with a letter or digit is kept as it is |
| Onboarding.ScanHex | dafoma_31/Views/OnboardingView.swift:543 | the value of the leading hex digits: the whole string's value when it is all hex digits, 0 when it starts with something else, and below 16 to the power of the length |
| Onboarding.ScanHexStopsAtRunEnd | dafoma_31/Views/OnboardingView.swift:543 | when the hex digits stop early ("12345z"), the scan's value is exactly that of the digits before the first non-hex character |
| Onboarding.HexRunAll | dafoma_31/Views/OnboardingView.swift:543 | on a string of hex digits the scan reads every character |
| Onboarding.ParseHex | dafoma_31/Views/OnboardingView.swift:540-554 | every channel fits a byte. 3 digits: opaque nibbles ×17 that reassemble to the scanned value. 6 digits: opaque bytes that reassemble to it. 8 digits: alpha is the top byte. Any other length: (1, 1, 1, 0) |
| Onboarding.ParseHexRoundTrip | dafoma_31/Views/OnboardingView.swift:548-549 | writing channels as "#rrggbb" and parsing the string gives them back, opaque |
| Onboarding.SecondaryChannels | dafoma_31/Views/OnboardingView.swift:548-549 | "#e6053a" parses to (255, 0xE6, 0x05, 0x3A) |
| Onboarding.AnimateNextTile | dafoma_31/Views/OnboardingView.swift:465-473 | after the ninth tile everything goes back to background and index 0 |
| Onboarding.NextTileEffect | dafoma_31/Views/OnboardingView.swift:453-464 | before the ninth tile the next row-major tile takes its target colour, the index advances and no other tile changes |
| Onboarding.RevealOneMore | dafoma_31/Views/OnboardingView.swift:453-464 | one call on a demo with k tiles shown shows exactly k + 1 |
| Onboarding.DemoProgress | dafoma_31/Views/OnboardingView.swift:450-474 | after k ≤ 9 calls from the start exactly the first k tiles show the target and the rest background |
| Onboarding.ResetRevealsNothing | dafoma_31/Views/OnboardingView.swift:441-445 | the state the demo starts in is the grid with no tile revealed |
| Onboarding.TenthCallResets | dafoma_31/Views/OnboardingView.swift:465-473 | the tenth call from the start finds all nine tiles shown and restores the start |
| Onboarding.DemoCycle | dafoma_31/Views/OnboardingView.swift:450-474 | after any k calls from the start the demo shows the first k mod 10 tiles and has index k mod 10 |
| Onboarding.DemoPeriod | dafoma_31/Views/OnboardingView.swift:450-474 | the demo repeats every ten calls: k + 10 calls from the start equal k calls |
| Onboarding.NineCallsShowTarget | dafoma_31/Views/OnboardingView.swift:435-474 | after nine calls the demo shows the whole target |

## Left out

- Presentation is not modelled: SwiftUI views, animations, the `animatingTiles` sets and the delayed resets that clear them (`showingHint`, `showingFocusComplete`, `showingAchievementUnlock`). They affect what is drawn, not the game or statistics.
- Haptics, notifications, background tasks and break reminders are left out. They are effects on the device with no state the model reads back.
- Persistence is left out, because DataService.swift is not part of this model. This covers `saveUserData`, `loadUserData`, `loadFocusHistory`, `saveFocusSession` and `updateAchievementProgress`; a loaded history is a parameter of `UtilitiesViewModel.NewFocusState`.
- `exportFocusData` is left out: it only packages existing figures into a dictionary for export.
- `getScoreMultiplier` is left out. It is a display figure that nothing else reads, and it is a floating-point ratio.
- `GameSession.highlightMatchingColors` has an empty body, and the view model's version only animates tiles. Colour match therefore changes nothing but its counter.
- `checkFocusAchievements` is left out because its branches are empty. `updateUserStatistics` in the game view model also has an empty body, so completing a game there does not update the profile.
- Calendar semantics are left out: days are UTC blocks of 86400 seconds, with no time zones or daylight saving. "A week ago" is now − 7·86400.
- UUID identities are left out, because no modelled decision depends on them.
- `Color.init(hex:)` is modelled on integer channels only; the conversion to `Double/255` is left out.
- `Onboarding.ScanHex`: the "0x" prefix that `Scanner.scanHexInt64` would also accept is not modelled, and neither is its 64-bit overflow. The trimmed strings it is given here are at most 8 digits for every length that is used.
- GameViewModel.HandleGameCompletion: records the corrected solve time (`GameViewModel.FastestSolve`), not the whole time limit that GameViewModel.swift:117 stores as written (`GameViewModel.FastestSolveAsWritten`, see Findings).
- `Onboarding.IsAlnum`: only ASCII letters and digits count as alphanumeric. Foundation's Unicode alphanumerics are wider.
- `UtilitiesViewModel.FormattedTime` and `UtilitiesViewModel.FormattedDuration` take a `nat`. The source's `Int(time)` truncation of a negative or fractional interval is not modelled.
- `GameModel.UsePowerUpTimes` states only that the session stays well formed. It is an iteration helper for `GameModel.PowerUpExhaustion`.
- Combine's `objectWillChange` fires before a change lands, and which of the session's changes trigger it is not modelled. `GameViewModel.HandleGameStateChange` is the reaction to the session as it stands after a change.
- `GameViewModel.CheckForAchievements` keeps only the last unlocked achievement on screen, because each unlock overwrites the previous one. The per-unlock database update is persistence.

## Findings

| source | as written | input that shows it | evidently intended | confidence | as-written member | corrected member |
|---|---|---|---|---|---|---|
| dafoma_31/Models/UserModel.swift:260-317 | `lastPlayDate` is set to now before `updateConsecutiveDays` compares it with today. The "yesterday" branch repeats the same-day test. So the count never grows, and it drops to 1 only when the two clock readings straddle midnight | three consecutive days so far, playing on the following day: the count stays 3 | compare with the previous play date: +1 on the next day, 1 after a gap, unchanged on the same day | not executed | UserModel.ConsecutiveDaysAsWrittenCounterexample | UserModel.ConsecutiveDayScenarios |
| dafoma_31/Models/UserModel.swift:255-258 | power-ups used = Σ (3 − remaining), assuming every type starts with 3 | a fresh expert session, with nothing used, adds 10; a fresh easy session adds 1 | the allowance of the session's difficulty minus what remains | not executed | UserModel.PowerUpCountOffset | UserModel.CorrectedCountsEachUse |
| dafoma_31/ViewModels/GameViewModel.swift:117 | `timeLimit ?? 0 - (timeRemaining ?? 0)` parses as `timeLimit ?? (0 - timeRemaining)`, so the solve time is the whole limit | an easy game won with 100 of 120 s left records 120 | time limit minus time left (20 s) | not executed | GameViewModel.FastestSolveCounterexample | GameViewModel.FastestSolve |

The rest of the model uses the as-written behaviour where the source is the system of record:

- `UserModel.UpdateStatistics` keeps the day-count and power-up defects, and `UserModel.UpdateStatisticsCorrected` is the corrected counterpart.
- `GameViewModel.HandleGameCompletion` records the corrected solve time. Under the as-written parse the record would carry no information beyond the difficulty.

=== FILE: game_model.dfy ===
/**
 * The grid-matching puzzle engine: difficulty tables, target-pattern generation,
 * the play grid, moves, power-ups, the one-second clock and scoring.
 *
 * A session is an immutable value and every operation returns the next value.
 * The repeating one-second timer is represented by the flag `timerRunning`
 * (scheduled by start/resume, invalidated by pause/end) and the explicit step `Tick`.
 */
module GameModel {
  import opened Prelude

  datatype Difficulty = Easy | Medium | Hard | Expert {
    /** Side length of the square grid. */
    function GridSize(): nat {
      match this
      case Easy => 4
      case Medium => 5
      case Hard => 6
      case Expert => 7
    }

    /** Seconds on the clock when the session is created. */
    function TimeLimit(): nat {
      match this
      case Easy => 120
      case Medium => 90
      case Hard => 60
      case Expert => 45
    }

    /** Position in declaration order, easiest first. */
    function Rank(): nat {
      match this
      case Easy => 0
      case Medium => 1
      case Hard => 2
      case Expert => 3
    }
  }

  datatype GameState = NotStarted | Playing | Paused | Completed | Failed

  datatype PowerUpType = TimeBoost | HintReveal | ColorMatch | GridClear

  datatype TileColor = Primary | Secondary | Accent | Background | Neutral {
    /** The colour's raw value, a `#rrggbb` string. */
    function Hex(): string {
      match this
      case Primary => "#28a809"
      case Secondary => "#e6053a"
      case Accent => "#d17305"
      case Background => "#0e0e0e"
      case Neutral => "#666666"
    }
  }

  /** Grid coordinates; negative coordinates would trap on indexing, so they are excluded by type. */
  datatype GridPosition = GridPosition(row: nat, column: nat)

  datatype Tile = Tile(position: GridPosition, color: TileColor, isSelected: bool, isCorrect: bool, isHinted: bool)

  type Grid = seq<seq<Tile>>

  type ColorGrid = seq<seq<TileColor>>

  /** The generated target; `moves` is the move budget used by the score's move bonus. */
  datatype Pattern = Pattern(targetGrid: ColorGrid, difficulty: Difficulty, moves: int)

  /** One counter per power-up type (the source keeps them in a dictionary that always holds all four keys). */
  datatype PowerUpCounts = PowerUpCounts(timeBoost: int, hintReveal: int, colorMatch: int, gridClear: int) {
    function Get(t: PowerUpType): int {
      match t
      case TimeBoost => timeBoost
      case HintReveal => hintReveal
      case ColorMatch => colorMatch
      case GridClear => gridClear
    }

    function Set(t: PowerUpType, v: int): (r: PowerUpCounts)
      ensures r.Get(t) == v
      ensures forall u :: u != t ==> r.Get(u) == Get(u)
    {
      match t
      case TimeBoost => this.(timeBoost := v)
      case HintReveal => this.(hintReveal := v)
      case ColorMatch => this.(colorMatch := v)
      case GridClear => this.(gridClear := v)
    }

    function Total(): int {
      timeBoost + hintReveal + colorMatch + gridClear
    }
  }

  /** Power-ups granted when a session is created. */
  function Allowances(d: Difficulty): PowerUpCounts {
    match d
    case Easy => PowerUpCounts(3, 5, 2, 1)
    case Medium => PowerUpCounts(2, 3, 2, 1)
    case Hard => PowerUpCounts(1, 2, 1, 0)
    case Expert => PowerUpCounts(1, 1, 0, 0)
  }

  datatype Session = Session(
    currentGrid: Grid,
    targetPattern: Pattern,
    gameState: GameState,
    score: int,
    timeRemaining: int,
    movesUsed: int,
    powerUpsAvailable: PowerUpCounts,
    hintsUsed: int,
    currentStreak: int,
    difficulty: Difficulty,
    timerRunning: bool)

  // ---------------------------------------------------------------------------
  // Grid shapes and comparison with the target

  predicate IsSquare<T>(g: seq<seq<T>>, n: nat) {
    |g| == n && forall i :: 0 <= i < n ==> |g[i]| == n
  }

  /** The play grid and the target have the same row lengths, so every play cell has a target cell. */
  predicate Shaped(g: Grid, target: ColorGrid) {
    |g| == |target| && forall i :: 0 <= i < |g| ==> |g[i]| == |target[i]|
  }

  /** Both grids are gridSize x gridSize, as `init` builds them. */
  predicate WellFormed(s: Session) {
    IsSquare(s.currentGrid, s.difficulty.GridSize()) && IsSquare(s.targetPattern.targetGrid, s.difficulty.GridSize())
  }

  predicate InBounds(p: GridPosition, n: nat) {
    p.row < n && p.column < n
  }

  /** Every play cell shows its target colour. */
  predicate Matches(g: Grid, target: ColorGrid)
    requires Shaped(g, target)
  {
    forall i, j :: 0 <= i < |g| && 0 <= j < |g[i]| ==> g[i][j].color == target[i][j]
  }

  /** `p` is the first cell, in row-major order, whose colour differs from the target. */
  predicate FirstWrong(g: Grid, target: ColorGrid, p: GridPosition)
    requires Shaped(g, target)
  {
    && p.row < |g| && p.column < |g[p.row]|
    && g[p.row][p.column].color != target[p.row][p.column]
    && forall i, j :: 0 <= i < |g| && 0 <= j < |g[i]| && (i < p.row || (i == p.row && j < p.column)) ==>
         g[i][j].color == target[i][j]
  }

  /** There is only one first wrong cell. */
  lemma FirstWrongUnique(g: Grid, target: ColorGrid, p: GridPosition, q: GridPosition)
    requires Shaped(g, target)
    requires FirstWrong(g, target, p) && FirstWrong(g, target, q)
    ensures p == q
  {
  }

  /** First column at or after `j` where a row differs from its target row. */
  function MismatchInRow(row: seq<Tile>, want: seq<TileColor>, j: nat): (k: Option<nat>)
    requires |row| == |want| && j <= |row|
    decreases |row| - j
    ensures k.Some? ==> j <= k.value < |row| && row[k.value].color != want[k.value]
    ensures k.Some? ==> forall c :: j <= c < k.value ==> row[c].color == want[c]
    ensures k.None? ==> forall c :: j <= c < |row| ==> row[c].color == want[c]
  {
    if j == |row| then None
    else if row[j].color != want[j] then Some(j)
    else MismatchInRow(row, want, j + 1)
  }

  /** Row-major scan for a wrong cell, starting at row `i`. */
  function MismatchFrom(g: Grid, target: ColorGrid, i: nat): (p: Option<GridPosition>)
    requires Shaped(g, target) && i <= |g|
    decreases |g| - i
    ensures p.Some? ==> i <= p.value.row && FirstWrongFrom(g, target, p.value, i)
    ensures p.None? ==> forall a, b :: i <= a < |g| && 0 <= b < |g[a]| ==> g[a][b].color == target[a][b]
  {
    if i == |g| then None
    else match MismatchInRow(g[i], target[i], 0)
      case Some(j) => Some(GridPosition(i, j))
      case None => MismatchFrom(g, target, i + 1)
  }

  /** `p` is wrong and every cell between row `i` and `p` in row-major order is right. */
  predicate FirstWrongFrom(g: Grid, target: ColorGrid, p: GridPosition, i: nat)
    requires Shaped(g, target)
  {
    && p.row < |g| && p.column < |g[p.row]|
    && g[p.row][p.column].color != target[p.row][p.column]
    && forall a, b :: i <= a < |g| && 0 <= b < |g[a]| && (a < p.row || (a == p.row && b < p.column)) ==>
         g[a][b].color == target[a][b]
  }

  /**
   * The scan shared by `revealHint` and `isPatternComplete`: the first wrong cell
   * in row-major order, or None exactly when the grid matches the target.
   */
  function FirstMismatch(g: Grid, target: ColorGrid): (p: Option<GridPosition>)
    requires Shaped(g, target)
    ensures p.Some? ==> FirstWrong(g, target, p.value)
    ensures p.None? <==> Matches(g, target)
  {
    MismatchFrom(g, target, 0)
  }

  /** `isPatternComplete`: the scan finds no wrong cell. */
  predicate IsPatternComplete(g: Grid, target: ColorGrid)
    requires Shaped(g, target)
  {
    FirstMismatch(g, target).None?
  }

  // ---------------------------------------------------------------------------
  // Creating a session

  /** The colour a uniform draw selects: [0,0.4) primary, [0.4,0.7) secondary, [0.7,0.85) accent, the rest neutral. */
  function ColorOfDraw(x: real): (c: TileColor)
    ensures c != Background
    ensures c == Primary <==> x < 0.4
    ensures c == Secondary <==> 0.4 <= x < 0.7
    ensures c == Accent <==> 0.7 <= x < 0.85
    ensures c == Neutral <==> 0.85 <= x
  {
    if x < 0.4 then Primary
    else if x < 0.7 then Secondary
    else if x < 0.85 then Accent
    else Neutral
  }

  /** `Int(Double(n * n) * 1.5)`: one and a half moves per cell, rounded down. */
  function MoveBudget(n: nat): (m: nat)
    ensures m as real <= 1.5 * (n * n) as real < m as real + 1.0
  {
    var k := n * n;
    assert 2 * (k * 3 / 2) <= 3 * k < 2 * (k * 3 / 2) + 2;
    k * 3 / 2
  }

  /**
   * `generateRandomPattern`, with the random numbers passed in: `draws[i][j]` is the
   * draw made for cell (i, j).
   */
  function GeneratePattern(d: Difficulty, draws: seq<seq<real>>): (p: Pattern)
    requires IsSquare(draws, d.GridSize())
    ensures IsSquare(p.targetGrid, d.GridSize())
    ensures p.difficulty == d && p.moves == MoveBudget(d.GridSize())
    ensures forall i, j :: 0 <= i < d.GridSize() && 0 <= j < d.GridSize() ==> p.targetGrid[i][j] == ColorOfDraw(draws[i][j])
    ensures forall i, j :: 0 <= i < |p.targetGrid| && 0 <= j < |p.targetGrid[i]| ==> p.targetGrid[i][j] != Background
  {
    var n := d.GridSize();
    var rows := seq(n, i requires 0 <= i < n => seq(n, j requires 0 <= j < n => ColorOfDraw(draws[i][j])));
    Pattern(rows, d, MoveBudget(n))
  }

  /** `createEmptyGrid`: background tiles that know their own coordinates. */
  function EmptyGrid(n: nat): (g: Grid)
    ensures IsSquare(g, n)
    ensures forall i, j :: 0 <= i < n && 0 <= j < n ==>
              g[i][j].color == Background && g[i][j].position == GridPosition(i, j)
              && !g[i][j].isSelected && !g[i][j].isCorrect && !g[i][j].isHinted
  {
    seq(n, i requires 0 <= i < n => seq(n, j requires 0 <= j < n => Tile(GridPosition(i, j), Background, false, false, false)))
  }

  /** `GameSession.init(difficulty:)`. */
  function NewSession(d: Difficulty, draws: seq<seq<real>>): (s: Session)
    requires IsSquare(draws, d.GridSize())
    ensures WellFormed(s) && s.difficulty == d
    ensures s.gameState == NotStarted && !s.timerRunning
    ensures s.timeRemaining == d.TimeLimit() && s.powerUpsAvailable == Allowances(d)
    ensures s.score == 0 && s.movesUsed == 0 && s.hintsUsed == 0 && s.currentStreak == 0
    ensures s.currentGrid == EmptyGrid(d.GridSize()) && s.targetPattern == GeneratePattern(d, draws)
    ensures FirstMismatch(s.currentGrid, s.targetPattern.targetGrid) == Some(GridPosition(0, 0))
  {
    var s := Session(EmptyGrid(d.GridSize()), GeneratePattern(d, draws), NotStarted, 0, d.TimeLimit(),
                     0, Allowances(d), 0, 0, d, false);
    assert FirstWrong(s.currentGrid, s.targetPattern.targetGrid, GridPosition(0, 0));
    FirstWrongUnique(s.currentGrid, s.targetPattern.targetGrid,
                     FirstMismatch(s.currentGrid, s.targetPattern.targetGrid).value, GridPosition(0, 0));
    s
  }

  /** The tables grow harder with difficulty: bigger grids, less time, no more of any power-up. */
  lemma HarderIsHarder(d: Difficulty, e: Difficulty)
    requires d.Rank() < e.Rank()
    ensures d.GridSize() < e.GridSize()
    ensures d.TimeLimit() > e.TimeLimit()
    ensures forall t :: Allowances(d).Get(t) >= Allowances(e).Get(t)
  {
  }

  /** The concrete move budgets 24, 37, 54 and 73. */
  lemma MoveBudgets()
    ensures MoveBudget(Easy.GridSize()) == 24 && MoveBudget(Medium.GridSize()) == 37
    ensures MoveBudget(Hard.GridSize()) == 54 && MoveBudget(Expert.GridSize()) == 73
  {
  }

  // ---------------------------------------------------------------------------
  // Clock and lifecycle

  function StartGame(s: Session): (r: Session)
    ensures r.gameState == Playing && r.timerRunning
    ensures r.(gameState := s.gameState, timerRunning := s.timerRunning) == s
  {
    s.(gameState := Playing, timerRunning := true)
  }

  /** `pauseGame`: no guard on the current state, so it also applies to a finished session. */
  function PauseGame(s: Session): (r: Session)
    ensures r.gameState == Paused && !r.timerRunning
    ensures r.(gameState := s.gameState, timerRunning := s.timerRunning) == s
  {
    s.(gameState := Paused, timerRunning := false)
  }

  /** `resumeGame`: no guard either, so it puts a finished session back into play. */
  function ResumeGame(s: Session): (r: Session)
    ensures r.gameState == Playing && r.timerRunning
    ensures r.(gameState := s.gameState, timerRunning := s.timerRunning) == s
  {
    s.(gameState := Playing, timerRunning := true)
  }

  /** `gridSize² × 10 + timeRemaining × 2 + max(0, (moves − movesUsed) × 5) − hintsUsed × 10 + streak × 50`. */
  function Score(n: int, timeRemaining: int, moves: int, movesUsed: int, hintsUsed: int, streak: int): (r: int)
    ensures movesUsed >= moves ==> r == 10 * n * n + 2 * timeRemaining - 10 * hintsUsed + 50 * streak
    ensures movesUsed < moves ==> r == 10 * n * n + 2 * timeRemaining - 10 * hintsUsed + 50 * streak + 5 * (moves - movesUsed)
  {
    n * n * 10 + timeRemaining * 2 + Max(0, (moves - movesUsed) * 5) - hintsUsed * 10 + streak * 50
  }

  /**
   * On the same grid, a win with at least as much time left, no more moves and hints
   * used and at least the same streak never scores less; each second left is worth 2
   * and each hint costs 10.
   */
  lemma ScoreMonotone(n: int, t: int, t': int, moves: int, used: int, used': int, hints: int, hints': int, streak: int, streak': int)
    requires t <= t' && used' <= used && hints' <= hints && streak <= streak'
    ensures Score(n, t, moves, used, hints, streak) <= Score(n, t', moves, used', hints', streak')
    ensures Score(n, t + 1, moves, used, hints, streak) == Score(n, t, moves, used, hints, streak) + 2
    ensures Score(n, t, moves, used, hints + 1, streak) == Score(n, t, moves, used, hints, streak) - 10
  {
  }

  /** `endGame(success:)`: stops the clock; a win scores with the streak before it is incremented. */
  function EndGame(s: Session, success: bool): (r: Session)
    ensures !r.timerRunning && r.gameState == (if success then Completed else Failed)
    ensures success ==> r.currentStreak == s.currentStreak + 1
    ensures success ==> r.score == Score(s.difficulty.GridSize(), s.timeRemaining, s.targetPattern.moves,
                                         s.movesUsed, s.hintsUsed, s.currentStreak)
    ensures !success ==> r.currentStreak == 0 && r.score == s.score
    ensures r.(gameState := s.gameState, timerRunning := s.timerRunning, score := s.score, currentStreak := s.currentStreak) == s
  {
    var stopped := s.(timerRunning := false, gameState := if success then Completed else Failed);
    if success then
      stopped.(score := Score(s.difficulty.GridSize(), s.timeRemaining, s.targetPattern.moves,
                              s.movesUsed, s.hintsUsed, s.currentStreak),
               currentStreak := s.currentStreak + 1)
    else
      stopped.(currentStreak := 0)
  }

  /** Worked example: an easy grid won with 53 s left, 10 of 24 moves used, 1 hint and streak 2 scores 160 + 106 + 70 − 10 + 100 = 426. */
  lemma ScoreWorkedExample(s: Session)
    requires s.difficulty == Easy && s.timeRemaining == 53 && s.targetPattern.moves == 24
    requires s.movesUsed == 10 && s.hintsUsed == 1 && s.currentStreak == 2
    ensures EndGame(s, true).score == 426 && EndGame(s, true).currentStreak == 3
  {
  }

  /** One firing of the repeating timer: count down while time is left, otherwise fail the game. */
  function Tick(s: Session): (r: Session)
    ensures !s.timerRunning ==> r == s
    ensures s.timerRunning && s.timeRemaining > 0 ==> r == s.(timeRemaining := s.timeRemaining - 1)
    ensures s.timerRunning && s.timeRemaining <= 0 ==> r == EndGame(s, false)
  {
    if !s.timerRunning then s
    else if s.timeRemaining > 0 then s.(timeRemaining := s.timeRemaining - 1)
    else EndGame(s, false)
  }

  function Ticks(s: Session, k: nat): Session
    decreases k
  {
    if k == 0 then s else Ticks(Tick(s), k - 1)
  }

  /** With the clock running and nothing else happening, the game fails one tick after the time reaches zero. */
  lemma {:induction false} ClockRunsOut(s: Session)
    requires s.timerRunning && s.timeRemaining >= 0
    ensures Ticks(s, s.timeRemaining) == s.(timeRemaining := 0)
    ensures Ticks(s, s.timeRemaining + 1) == EndGame(s.(timeRemaining := 0), false)
    ensures Ticks(s, s.timeRemaining + 1).gameState == Failed && Ticks(s, s.timeRemaining + 1).currentStreak == 0
    decreases s.timeRemaining
  {
    if s.timeRemaining > 0 {
      var s' := Tick(s);
      ClockRunsOut(s');
      assert s'.(timeRemaining := 0) == s.(timeRemaining := 0);
    }
  }

  /** While paused no tick arrives, so the clock keeps its value. */
  lemma {:induction false} PausedClockStands(s: Session, k: nat)
    ensures Ticks(PauseGame(s), k) == PauseGame(s)
    decreases k
  {
    if k > 0 {
      PausedClockStands(s, k - 1);
    }
  }

  // ---------------------------------------------------------------------------
  // Moves

  /** Recolour one tile, keeping its flags and position. */
  function SetColor(g: Grid, p: GridPosition, c: TileColor): (r: Grid)
    requires p.row < |g| && p.column < |g[p.row]|
    ensures |r| == |g| && forall i :: 0 <= i < |g| ==> |r[i]| == |g[i]|
    ensures r[p.row][p.column] == g[p.row][p.column].(color := c)
    ensures forall i, j :: 0 <= i < |g| && 0 <= j < |g[i]| && (i != p.row || j != p.column) ==> r[i][j] == g[i][j]
  {
    g[p.row := g[p.row][p.column := g[p.row][p.column].(color := c)]]
  }

  /**
   * `makeMove(at:newColor:)`: outside `playing` nothing happens; otherwise the tile is
   * recoloured, the move counted, and a grid that now matches the target wins the game.
   */
  function MakeMove(s: Session, p: GridPosition, c: TileColor): (r: Session)
    requires WellFormed(s) && InBounds(p, s.difficulty.GridSize())
    ensures WellFormed(r)
    ensures s.gameState != Playing ==> r == s
    ensures s.gameState == Playing ==>
              && r.currentGrid == SetColor(s.currentGrid, p, c)
              && r.movesUsed == s.movesUsed + 1
              && r.targetPattern == s.targetPattern && r.difficulty == s.difficulty
              && r.timeRemaining == s.timeRemaining && r.hintsUsed == s.hintsUsed
              && r.powerUpsAvailable == s.powerUpsAvailable
              && (r.gameState == Completed <==> Matches(r.currentGrid, r.targetPattern.targetGrid))
              && (r.gameState != Completed ==>
                    r.gameState == Playing && r.score == s.score
                    && r.currentStreak == s.currentStreak && r.timerRunning == s.timerRunning)
              && (r.gameState == Completed ==>
                    !r.timerRunning && r.currentStreak == s.currentStreak + 1
                    && r.score == Score(s.difficulty.GridSize(), s.timeRemaining, s.targetPattern.moves,
                                        s.movesUsed + 1, s.hintsUsed, s.currentStreak))
  {
    if s.gameState != Playing then s
    else
      var moved := s.(currentGrid := SetColor(s.currentGrid, p, c), movesUsed := s.movesUsed + 1);
      if IsPatternComplete(moved.currentGrid, moved.targetPattern.targetGrid) then EndGame(moved, true) else moved
  }

  /** Repeating a move that did not finish the game leaves the grid alone but still costs a move. */
  lemma MoveCountsEvenWithoutChange(s: Session, p: GridPosition, c: TileColor)
    requires WellFormed(s) && InBounds(p, s.difficulty.GridSize()) && s.gameState == Playing
    requires MakeMove(s, p, c).gameState == Playing
    ensures MakeMove(MakeMove(s, p, c), p, c).currentGrid == MakeMove(s, p, c).currentGrid
    ensures MakeMove(MakeMove(s, p, c), p, c).movesUsed == s.movesUsed + 2
  {
    var once := MakeMove(s, p, c);
    var g := SetColor(once.currentGrid, p, c);
    assert forall i :: 0 <= i < |g| ==> g[i] == once.currentGrid[i];
  }

  // ---------------------------------------------------------------------------
  // Power-ups

  /** `revealHint`: count the hint and flag the first wrong tile, if any; no colour changes. */
  function RevealHint(s: Session): (r: Session)
    requires WellFormed(s)
    ensures WellFormed(r)
    ensures r.hintsUsed == s.hintsUsed + 1
    ensures r.(currentGrid := s.currentGrid, hintsUsed := s.hintsUsed) == s
    ensures forall i, j :: 0 <= i < |s.currentGrid| && 0 <= j < |s.currentGrid[i]| ==>
              r.currentGrid[i][j] == s.currentGrid[i][j]
              || (r.currentGrid[i][j] == s.currentGrid[i][j].(isHinted := true)
                  && FirstWrong(s.currentGrid, s.targetPattern.targetGrid, GridPosition(i, j)))
    ensures forall p :: FirstWrong(s.currentGrid, s.targetPattern.targetGrid, p) ==> r.currentGrid[p.row][p.column].isHinted
    ensures Matches(s.currentGrid, s.targetPattern.targetGrid) ==> r.currentGrid == s.currentGrid
  {
    var g := s.currentGrid;
    var m := FirstMismatch(g, s.targetPattern.targetGrid);
    match m
    case None => s.(hintsUsed := s.hintsUsed + 1)
    case Some(p) =>
      forall q | FirstWrong(g, s.targetPattern.targetGrid, q)
        ensures q == p
      {
        FirstWrongUnique(g, s.targetPattern.targetGrid, p, q);
      }
      s.(hintsUsed := s.hintsUsed + 1, currentGrid := g[p.row := g[p.row][p.column := g[p.row][p.column].(isHinted := true)]])
  }

  /** Asking twice without a move in between marks the same tile again: the grid is the same. */
  lemma HintTwiceSameTile(s: Session)
    requires WellFormed(s)
    ensures RevealHint(RevealHint(s)).currentGrid == RevealHint(s).currentGrid
    ensures RevealHint(RevealHint(s)).hintsUsed == s.hintsUsed + 2
  {
    var once := RevealHint(s);
    var t := s.targetPattern.targetGrid;
    // Colours are unchanged, so the first wrong cell is the same before and after.
    assert forall i, j :: 0 <= i < |s.currentGrid| && 0 <= j < |s.currentGrid[i]| ==>
             once.currentGrid[i][j].color == s.currentGrid[i][j].color;
    match FirstMismatch(s.currentGrid, t)
    case None =>
    case Some(p) =>
      assert FirstWrong(once.currentGrid, t, p);
      FirstWrongUnique(once.currentGrid, t, p, FirstMismatch(once.currentGrid, t).value);
      var g: Grid := once.currentGrid;
      assert g[p.row][p.column].(isHinted := true) == g[p.row][p.column];
      assert g[p.row][p.column := g[p.row][p.column]] == g[p.row];
  }

  /** One step of `clearIncorrectTiles`. */
  function ClearTile(t: Tile, want: TileColor): Tile {
    if t.color != want && t.color != Background then t.(color := Background) else t
  }

  /** `clearIncorrectTiles`: every wrong, non-background tile goes back to background. */
  function ClearIncorrect(g: Grid, target: ColorGrid): (r: Grid)
    requires Shaped(g, target)
    ensures Shaped(r, target)
    ensures forall i, j :: 0 <= i < |g| && 0 <= j < |g[i]| ==>
              && (g[i][j].color == target[i][j] || g[i][j].color == Background ==> r[i][j] == g[i][j])
              && (r[i][j].color == target[i][j] || r[i][j].color == Background)
              && r[i][j] == g[i][j].(color := r[i][j].color)
  {
    seq(|g|, i requires 0 <= i < |g| => seq(|g[i]|, j requires 0 <= j < |g[i]| => ClearTile(g[i][j], target[i][j])))
  }

  lemma ClearIncorrectIdempotent(g: Grid, target: ColorGrid)
    requires Shaped(g, target)
    ensures ClearIncorrect(ClearIncorrect(g, target), target) == ClearIncorrect(g, target)
  {
    var once := ClearIncorrect(g, target);
    var twice := ClearIncorrect(once, target);
    forall i | 0 <= i < |g|
      ensures twice[i] == once[i]
    {
      assert forall j :: 0 <= j < |g[i]| ==> twice[i][j] == once[i][j];
    }
  }

  /**
   * `usePowerUp`: an exhausted type does nothing; otherwise exactly that counter drops by one
   * and the effect applies. There is no check of the game state.
   */
  function UsePowerUp(s: Session, t: PowerUpType): (r: Session)
    requires WellFormed(s)
    ensures WellFormed(r)
    ensures s.powerUpsAvailable.Get(t) <= 0 ==> r == s
    ensures s.powerUpsAvailable.Get(t) > 0 ==>
              && (forall u :: r.powerUpsAvailable.Get(u) == s.powerUpsAvailable.Get(u) - (if u == t then 1 else 0))
              && r.gameState == s.gameState && r.timerRunning == s.timerRunning
              && r.score == s.score && r.movesUsed == s.movesUsed && r.currentStreak == s.currentStreak
              && r.targetPattern == s.targetPattern && r.difficulty == s.difficulty
              && r.timeRemaining == s.timeRemaining + (if t == TimeBoost then 15 else 0)
              && r.hintsUsed == s.hintsUsed + (if t == HintReveal then 1 else 0)
              && (t == TimeBoost || t == ColorMatch ==> r.currentGrid == s.currentGrid)
              && (t == HintReveal ==> r.currentGrid == RevealHint(s).currentGrid)
              && (t == GridClear ==> r.currentGrid == ClearIncorrect(s.currentGrid, s.targetPattern.targetGrid))
  {
    var count := s.powerUpsAvailable.Get(t);
    if count <= 0 then s
    else
      var spent := s.(powerUpsAvailable := s.powerUpsAvailable.Set(t, count - 1));
      match t
      case TimeBoost => spent.(timeRemaining := spent.timeRemaining + 15)
      case HintReveal => RevealHint(spent)
      case ColorMatch => spent
      case GridClear => spent.(currentGrid := ClearIncorrect(spent.currentGrid, spent.targetPattern.targetGrid))
  }

  function UsePowerUpTimes(s: Session, t: PowerUpType, k: nat): (r: Session)
    requires WellFormed(s)
    ensures WellFormed(r)
    decreases k
  {
    if k == 0 then s else UsePowerUpTimes(UsePowerUp(s, t), t, k - 1)
  }

  /** Using a power-up as often as it is available exhausts it; one more use is then a no-op. */
  lemma {:induction false} PowerUpExhaustion(s: Session, t: PowerUpType)
    requires WellFormed(s) && s.powerUpsAvailable.Get(t) >= 0
    ensures UsePowerUpTimes(s, t, s.powerUpsAvailable.Get(t)).powerUpsAvailable.Get(t) == 0
    ensures UsePowerUp(UsePowerUpTimes(s, t, s.powerUpsAvailable.Get(t)), t) == UsePowerUpTimes(s, t, s.powerUpsAvailable.Get(t))
    decreases s.powerUpsAvailable.Get(t)
  {
    if s.powerUpsAvailable.Get(t) > 0 {
      PowerUpExhaustion(UsePowerUp(s, t), t);
    }
  }

  // ---------------------------------------------------------------------------
  // Invariants over whole play-throughs

  /** The clock never goes negative, whatever sequence of operations is applied. */
  lemma ClockStaysNonNegative(s: Session, p: GridPosition, c: TileColor, t: PowerUpType, success: bool)
    requires WellFormed(s) && InBounds(p, s.difficulty.GridSize()) && s.timeRemaining >= 0
    ensures Tick(s).timeRemaining >= 0
    ensures MakeMove(s, p, c).timeRemaining >= 0
    ensures UsePowerUp(s, t).timeRemaining >= s.timeRemaining
    ensures EndGame(s, success).timeRemaining >= 0
  {
  }

  /**
   * Terminal states are not protected: pausing and resuming a won game puts it back into
   * play, and the next move is accepted.
   */
  lemma FinishedGameCanBeResumed(s: Session, p: GridPosition, c: TileColor)
    requires WellFormed(s) && InBounds(p, s.difficulty.GridSize()) && s.gameState == Completed
    ensures MakeMove(s, p, c) == s
    ensures ResumeGame(PauseGame(s)).gameState == Playing
    ensures MakeMove(ResumeGame(PauseGame(s)), p, c).movesUsed == s.movesUsed + 1
  {
  }
}

=== FILE: game_view_model.dfy ===
/**
 * The game screen's glue (`GameViewModel`): starting, pausing, resuming and ending a
 * game, the player actions guarded by `isGameActive`, the per-game counters, the
 * achievements checked when a game is won, and the read-only helpers the grid view
 * calls (tile lookups, completion percentage, clock string).
 *
 * The session is a value here; every action returns the view model with its new
 * session. The reaction to a session state change is the explicit step
 * `HandleGameStateChange`.
 */
module GameViewModel {
  import opened Prelude
  import opened GameModel
  import UserModel
  import opened TextFormat

  // ---------------------------------------------------------------------------
  // State

  /** Counters for the game in progress. */
  datatype SessionStats = SessionStats(
    perfectMoves: int,
    powerUpsUsed: PowerUpCounts,
    fastestSolve: int,
    hintsUsedThisSession: int)

  function NewSessionStats(): SessionStats {
    SessionStats(0, PowerUpCounts(0, 0, 0, 0), 0, 0)
  }

  datatype GameVM = GameVM(
    currentSession: Option<Session>,
    isGameActive: bool,
    selectedDifficulty: Difficulty,
    showingGameOver: bool,
    showingPauseMenu: bool,
    selectedTilePosition: Option<GridPosition>,
    showingPowerUpMenu: bool,
    showingHint: bool,
    gameOverMessage: string,
    showingAchievementUnlock: bool,
    unlockedAchievement: Option<UserModel.Achievement>,
    sessionStats: SessionStats)

  /** A held session is a square game whose clock has not gone below zero. */
  predicate Valid(vm: GameVM) {
    vm.currentSession.Some? ==> WellFormed(vm.currentSession.value) && vm.currentSession.value.timeRemaining >= 0
  }

  /** The guard every player action starts with. */
  predicate CanAct(vm: GameVM) {
    vm.isGameActive && vm.currentSession.Some?
  }

  /** The view model as it is created: no game, nothing showing. */
  function NewGameVM(): (vm: GameVM)
    ensures Valid(vm) && !CanAct(vm)
  {
    GameVM(None, false, Easy, false, false, None, false, false, "", false, None, NewSessionStats())
  }

  // ---------------------------------------------------------------------------
  // Game management

  /** `startNewGame`: a fresh session for the difficulty, already playing, with zeroed counters. */
  function StartNewGame(vm: GameVM, d: Difficulty, draws: seq<seq<real>>): (r: GameVM)
    requires IsSquare(draws, d.GridSize())
    ensures Valid(r) && CanAct(r)
    ensures r.currentSession == Some(StartGame(NewSession(d, draws)))
    ensures r.currentSession.value.gameState == Playing && r.currentSession.value.timeRemaining == d.TimeLimit()
    ensures r.selectedDifficulty == d && !r.showingGameOver && r.sessionStats == NewSessionStats()
    ensures r == vm.(selectedDifficulty := d, currentSession := r.currentSession, isGameActive := true,
                     showingGameOver := false, sessionStats := r.sessionStats)
  {
    vm.(selectedDifficulty := d, currentSession := Some(StartGame(NewSession(d, draws))),
        isGameActive := true, showingGameOver := false, sessionStats := NewSessionStats())
  }

  function MapSession(o: Option<Session>, f: Session -> Session): Option<Session> {
    match o
    case None => None
    case Some(s) => Some(f(s))
  }

  /** `pauseGame`: pause the session, whatever state it is in, and stop accepting actions. */
  function Pause(vm: GameVM): (r: GameVM)
    requires Valid(vm)
    ensures Valid(r) && !CanAct(r) && r.showingPauseMenu
    ensures r.currentSession.None? <==> vm.currentSession.None?
    ensures vm.currentSession.Some? ==> r.currentSession.value == PauseGame(vm.currentSession.value)
    ensures r == vm.(currentSession := r.currentSession, showingPauseMenu := true, isGameActive := false)
  {
    vm.(currentSession := MapSession(vm.currentSession, PauseGame), showingPauseMenu := true, isGameActive := false)
  }

  /** `resumeGame`: resume the session, whatever state it is in, and accept actions again. */
  function Resume(vm: GameVM): (r: GameVM)
    requires Valid(vm)
    ensures Valid(r) && r.isGameActive && !r.showingPauseMenu
    ensures r.currentSession.None? <==> vm.currentSession.None?
    ensures vm.currentSession.Some? ==> r.currentSession.value == ResumeGame(vm.currentSession.value)
    ensures r == vm.(currentSession := r.currentSession, showingPauseMenu := false, isGameActive := true)
  {
    vm.(currentSession := MapSession(vm.currentSession, ResumeGame), showingPauseMenu := false, isGameActive := true)
  }

  /** `endGame`: drop the session and the selection and hide every overlay. */
  function EndGame(vm: GameVM): (r: GameVM)
    ensures Valid(r) && !CanAct(r)
    ensures r.currentSession.None? && r.selectedTilePosition.None? && r.unlockedAchievement.None?
    ensures !r.showingGameOver && !r.showingPauseMenu && !r.showingPowerUpMenu && !r.showingAchievementUnlock
    ensures r == vm.(isGameActive := false, currentSession := None, selectedTilePosition := None,
                     showingGameOver := false, showingPauseMenu := false, showingPowerUpMenu := false,
                     showingAchievementUnlock := false, unlockedAchievement := None)
  {
    vm.(isGameActive := false, currentSession := None, selectedTilePosition := None,
        showingGameOver := false, showingPauseMenu := false, showingPowerUpMenu := false,
        showingAchievementUnlock := false, unlockedAchievement := None)
  }

  /** Pausing twice is pausing once; resuming undoes a pause of a running game. */
  lemma PauseResumeRoundTrip(vm: GameVM)
    requires Valid(vm) && CanAct(vm) && vm.currentSession.value.gameState == Playing
    requires vm.currentSession.value.timerRunning && !vm.showingPauseMenu
    ensures Pause(Pause(vm)) == Pause(vm)
    ensures Resume(Pause(vm)) == vm
  {
  }

  // ---------------------------------------------------------------------------
  // Reacting to the end of a game

  /** Swift's `a ?? b` on an optional number. */
  function Coalesce(a: Option<int>, b: int): (r: int)
    ensures a.Some? ==> r == a.value
    ensures a.None? ==> r == b
  {
    match a
    case Some(v) => v
    case None => b
  }

  function LimitOf(o: Option<Session>): Option<int> {
    match o
    case None => None
    case Some(s) => Some(s.targetPattern.difficulty.TimeLimit())
  }

  function RemainingOf(o: Option<Session>): Option<int> {
    match o
    case None => None
    case Some(s) => Some(s.timeRemaining)
  }

  /**
   * `timeLimit ?? 0 - (timeRemaining ?? 0)` as Swift parses it: `??` binds looser than
   * `-`, so the subtraction only happens when there is no time limit at all.
   */
  function FastestSolveAsWritten(o: Option<Session>): (r: int)
    ensures o.None? ==> r == 0
    ensures o.Some? ==> r == o.value.targetPattern.difficulty.TimeLimit()
  {
    Coalesce(LimitOf(o), 0 - Coalesce(RemainingOf(o), 0))
  }

  /** The elapsed play time the expression means: time limit minus time left. */
  function FastestSolve(o: Option<Session>): (r: int)
    ensures o.None? ==> r == 0
    ensures o.Some? ==> r + o.value.timeRemaining == o.value.targetPattern.difficulty.TimeLimit()
  {
    Coalesce(LimitOf(o), 0) - Coalesce(RemainingOf(o), 0)
  }

  /** As written, the recorded solve time is the whole time limit, however fast the game was won. */
  lemma FastestSolveAsWrittenIgnoresClock(s: Session)
    ensures FastestSolveAsWritten(Some(s)) == s.targetPattern.difficulty.TimeLimit()
    ensures s.timeRemaining != 0 ==> FastestSolveAsWritten(Some(s)) != FastestSolve(Some(s))
  {
  }

  /** A concrete case: an easy game won with 100 of its 120 seconds left records 120, not 20. */
  lemma FastestSolveCounterexample(s: Session)
    requires s.targetPattern.difficulty == Easy && s.timeRemaining == 100
    ensures FastestSolveAsWritten(Some(s)) == 120 && FastestSolve(Some(s)) == 20
  {
  }

  /** Achievements a won game earns, in the order `checkForAchievements` unlocks them. */
  function SessionUnlocks(s: Session, stats: SessionStats): (r: seq<UserModel.AchievementType>)
    ensures UserModel.SpeedRunner in r <==> s.targetPattern.difficulty.TimeLimit() - s.timeRemaining <= 30
    ensures UserModel.Perfectionist in r <==> s.hintsUsed == 0
    ensures UserModel.PowerUpMaster in r <==> stats.powerUpsUsed.Total() >= 4
    ensures forall k :: k in r ==> k in {UserModel.SpeedRunner, UserModel.Perfectionist, UserModel.PowerUpMaster}
    ensures forall i, j :: 0 <= i < j < |r| ==> r[i].Index() < r[j].Index()
  {
    (if s.targetPattern.difficulty.TimeLimit() - s.timeRemaining <= 30 then [UserModel.SpeedRunner] else [])
    + (if s.hintsUsed == 0 then [UserModel.Perfectionist] else [])
    + (if stats.powerUpsUsed.Total() >= 4 then [UserModel.PowerUpMaster] else [])
  }

  /** `checkForAchievements`: each earned achievement is shown in turn, so the last one stays on screen. */
  function CheckForAchievements(vm: GameVM, now: int): (r: GameVM)
    ensures vm.currentSession.None? ==> r == vm
    ensures vm.currentSession.Some? ==>
              var earned := SessionUnlocks(vm.currentSession.value, vm.sessionStats);
              && (|earned| == 0 ==> r == vm)
              && (|earned| > 0 ==>
                    r == vm.(showingAchievementUnlock := true,
                             unlockedAchievement := Some(UserModel.Achievement(earned[|earned| - 1], Some(now), 1.0))))
  {
    match vm.currentSession
    case None => vm
    case Some(s) =>
      var earned := SessionUnlocks(s, vm.sessionStats);
      if |earned| == 0 then vm
      else vm.(showingAchievementUnlock := true,
               unlockedAchievement := Some(UserModel.Achievement(earned[|earned| - 1], Some(now), 1.0)))
  }

  /** Power-up uses are pooled across types: four uses of a single type are enough. */
  lemma PowerUpMasterPoolsTypes(s: Session, stats: SessionStats, t: PowerUpType)
    requires stats.powerUpsUsed == PowerUpCounts(0, 0, 0, 0).Set(t, 4)
    ensures UserModel.PowerUpMaster in SessionUnlocks(s, stats)
  {
  }

  /** The achievements a game earns do not depend on the recorded solve time. */
  lemma UnlocksIgnoreSolveTime(o: Option<Session>, stats: SessionStats, stats': SessionStats)
    requires stats' == stats.(fastestSolve := stats'.fastestSolve)
    ensures o.Some? ==> SessionUnlocks(o.value, stats') == SessionUnlocks(o.value, stats)
  {
  }

  /**
   * What a won game leaves on screen: the last achievement it earned, unlocked at `now`
   * with full progress, or the previous display when it earned none.
   */
  predicate ShowsLastEarned(r: GameVM, o: Option<Session>, stats: SessionStats,
                            shown: bool, shownAchievement: Option<UserModel.Achievement>, now: int)
  {
    var earned := if o.Some? then SessionUnlocks(o.value, stats) else [];
    if |earned| > 0 then
      r.showingAchievementUnlock && r.unlockedAchievement == Some(UserModel.Achievement(earned[|earned| - 1], Some(now), 1.0))
    else
      r.showingAchievementUnlock == shown && r.unlockedAchievement == shownAchievement
  }

  /** `handleGameCompletion`: stop accepting actions, show the game-over screen, and on a win record the time taken and check achievements. */
  function HandleGameCompletion(vm: GameVM, success: bool, now: int): (r: GameVM)
    requires Valid(vm)
    ensures Valid(r)
    ensures success ==> r.gameOverMessage == "Congratulations! Pattern Complete!"
                        && r.sessionStats.fastestSolve == FastestSolve(vm.currentSession)
    ensures !success ==> r.gameOverMessage == "Time's Up! Try Again?" && r.sessionStats == vm.sessionStats
                         && r.unlockedAchievement == vm.unlockedAchievement
    ensures success ==> r.sessionStats.(fastestSolve := vm.sessionStats.fastestSolve) == vm.sessionStats
    ensures success ==> ShowsLastEarned(r, vm.currentSession, vm.sessionStats,
                                        vm.showingAchievementUnlock, vm.unlockedAchievement, now)
    ensures r == vm.(isGameActive := false, showingGameOver := true, gameOverMessage := r.gameOverMessage,
                     sessionStats := r.sessionStats, showingAchievementUnlock := r.showingAchievementUnlock,
                     unlockedAchievement := r.unlockedAchievement)
  {
    var over := vm.(isGameActive := false, showingGameOver := true);
    if success then Congratulate(over, now)
    else over.(gameOverMessage := "Time's Up! Try Again?")
  }

  /** The win path of `handleGameCompletion`: the message, the time taken, and the achievement check. */
  function Congratulate(vm: GameVM, now: int): (r: GameVM)
    requires Valid(vm)
    ensures r.currentSession == vm.currentSession
    ensures r.sessionStats == vm.sessionStats.(fastestSolve := FastestSolve(vm.currentSession))
    ensures ShowsLastEarned(r, vm.currentSession, vm.sessionStats, vm.showingAchievementUnlock, vm.unlockedAchievement, now)
    ensures r == vm.(gameOverMessage := "Congratulations! Pattern Complete!", sessionStats := r.sessionStats,
                     showingAchievementUnlock := r.showingAchievementUnlock, unlockedAchievement := r.unlockedAchievement)
  {
    var stats := vm.sessionStats.(fastestSolve := FastestSolve(vm.currentSession));
    UnlocksIgnoreSolveTime(vm.currentSession, vm.sessionStats, stats);
    CheckForAchievements(vm.(gameOverMessage := "Congratulations! Pattern Complete!", sessionStats := stats), now)
  }

  /** `handleGameStateChange`: react to a won, lost or paused session; otherwise nothing. */
  function HandleGameStateChange(vm: GameVM, now: int): (r: GameVM)
    requires Valid(vm)
    ensures Valid(r)
    ensures vm.currentSession.None? ==> r == vm
    ensures vm.currentSession.Some? ==>
              match vm.currentSession.value.gameState
              case Completed => r == HandleGameCompletion(vm, true, now)
              case Failed => r == HandleGameCompletion(vm, false, now)
              case Paused => r == vm.(showingPauseMenu := true)
              case _ => r == vm
  {
    match vm.currentSession
    case None => vm
    case Some(s) =>
      match s.gameState
      case Completed => HandleGameCompletion(vm, true, now)
      case Failed => HandleGameCompletion(vm, false, now)
      case Paused => vm.(showingPauseMenu := true)
      case _ => vm
  }

  /** A finished game shuts the actions off: after the reaction, every player action is a no-op. */
  lemma FinishedGameBlocksActions(vm: GameVM, now: int, p: GridPosition, c: TileColor, t: PowerUpType)
    requires Valid(vm) && vm.currentSession.Some?
    requires vm.currentSession.value.gameState in {Completed, Failed}
    ensures var r := HandleGameStateChange(vm, now);
            && SelectTile(r, p) == r && ApplyColor(r, c, p) == r && UsePowerUp(r, t) == r && UseHint(r) == r
  {
  }

  // ---------------------------------------------------------------------------
  // Player actions

  /** Where an active game asks for a tile, the tile exists (the source indexes the grid directly). */
  predicate TargetsTile(vm: GameVM, p: GridPosition) {
    CanAct(vm) ==> InBounds(p, vm.currentSession.value.difficulty.GridSize())
  }

  /** `selectTile`: remember the tile, only in an active game. */
  function SelectTile(vm: GameVM, p: GridPosition): (r: GameVM)
    requires Valid(vm) && TargetsTile(vm, p)
    ensures Valid(r)
    ensures !CanAct(vm) ==> r == vm
    ensures CanAct(vm) ==> r == vm.(selectedTilePosition := Some(p))
  {
    if !CanAct(vm) then vm else vm.(selectedTilePosition := Some(p))
  }

  /** `applyColor`: make the move, clear the selection, and count the move as perfect iff it paints the target colour. */
  function ApplyColor(vm: GameVM, c: TileColor, p: GridPosition): (r: GameVM)
    requires Valid(vm) && TargetsTile(vm, p)
    ensures Valid(r)
    ensures !CanAct(vm) ==> r == vm
    ensures CanAct(vm) ==>
              var s := vm.currentSession.value;
              && r.currentSession == Some(MakeMove(s, p, c))
              && r.selectedTilePosition.None?
              && r.sessionStats.perfectMoves
                 == vm.sessionStats.perfectMoves + (if c == s.targetPattern.targetGrid[p.row][p.column] then 1 else 0)
              && r.sessionStats.(perfectMoves := vm.sessionStats.perfectMoves) == vm.sessionStats
              && r == vm.(currentSession := r.currentSession, selectedTilePosition := None, sessionStats := r.sessionStats)
  {
    if !CanAct(vm) then vm
    else
      var s := vm.currentSession.value;
      var moved := vm.(currentSession := Some(MakeMove(s, p, c)), selectedTilePosition := None);
      if c == s.targetPattern.targetGrid[p.row][p.column] then
        moved.(sessionStats := moved.sessionStats.(perfectMoves := moved.sessionStats.perfectMoves + 1))
      else
        moved
  }

  /** `usePowerUp`: spend the power-up and count the use, even when none was left to spend. */
  function UsePowerUp(vm: GameVM, t: PowerUpType): (r: GameVM)
    requires Valid(vm)
    ensures Valid(r)
    ensures !CanAct(vm) ==> r == vm
    ensures CanAct(vm) ==>
              && r.currentSession == Some(GameModel.UsePowerUp(vm.currentSession.value, t))
              && (forall u :: r.sessionStats.powerUpsUsed.Get(u)
                                == vm.sessionStats.powerUpsUsed.Get(u) + (if u == t then 1 else 0))
              && r.sessionStats.powerUpsUsed.Total() == vm.sessionStats.powerUpsUsed.Total() + 1
              && !r.showingPowerUpMenu
              && r.showingHint == (vm.showingHint || t == HintReveal)
              && r == vm.(currentSession := r.currentSession, showingPowerUpMenu := false, showingHint := r.showingHint,
                          sessionStats := vm.sessionStats.(powerUpsUsed := r.sessionStats.powerUpsUsed))
  {
    if !CanAct(vm) then vm
    else
      var s := vm.currentSession.value;
      var used := vm.sessionStats.powerUpsUsed;
      var stats := vm.sessionStats.(powerUpsUsed := used.Set(t, used.Get(t) + 1));
      var r := vm.(currentSession := Some(GameModel.UsePowerUp(s, t)), sessionStats := stats, showingPowerUpMenu := false);
      if t == HintReveal then r.(showingHint := true) else r
  }

  /** `useHint`: spend a hint reveal and count it, even when none was left. */
  function UseHint(vm: GameVM): (r: GameVM)
    requires Valid(vm)
    ensures Valid(r)
    ensures !CanAct(vm) ==> r == vm
    ensures CanAct(vm) ==>
              && r.currentSession == Some(GameModel.UsePowerUp(vm.currentSession.value, HintReveal))
              && r.sessionStats.hintsUsedThisSession == vm.sessionStats.hintsUsedThisSession + 1
              && r == vm.(currentSession := r.currentSession, showingHint := true,
                          sessionStats := vm.sessionStats.(hintsUsedThisSession := r.sessionStats.hintsUsedThisSession))
  {
    if !CanAct(vm) then vm
    else
      var s := vm.currentSession.value;
      vm.(currentSession := Some(GameModel.UsePowerUp(s, HintReveal)),
          sessionStats := vm.sessionStats.(hintsUsedThisSession := vm.sessionStats.hintsUsedThisSession + 1),
          showingHint := true)
  }

  /** With the session's hints exhausted, a hint changes the session not at all but is still counted. */
  lemma ExhaustedHintStillCounted(vm: GameVM)
    requires Valid(vm) && CanAct(vm) && vm.currentSession.value.powerUpsAvailable.hintReveal == 0
    ensures UseHint(vm).currentSession == vm.currentSession
    ensures UseHint(vm).sessionStats.hintsUsedThisSession == vm.sessionStats.hintsUsedThisSession + 1
  {
  }

  // ---------------------------------------------------------------------------
  // Read-only helpers

  /** `getTileColor`: the tile's colour, or background past the grid or without a game. */
  function TileColorAt(vm: GameVM, p: GridPosition): (c: TileColor)
    ensures vm.currentSession.None? ==> c == Background
    ensures vm.currentSession.Some? ==>
              var g := vm.currentSession.value.currentGrid;
              c == (if p.row < |g| && p.column < |g[p.row]| then g[p.row][p.column].color else Background)
  {
    match vm.currentSession
    case None => Background
    case Some(s) =>
      if p.row < |s.currentGrid| && p.column < |s.currentGrid[p.row]| then s.currentGrid[p.row][p.column].color
      else Background
  }

  /** `getTargetColor`: the target colour, or background past the grid or without a game. */
  function TargetColorAt(vm: GameVM, p: GridPosition): (c: TileColor)
    ensures vm.currentSession.None? ==> c == Background
    ensures vm.currentSession.Some? ==>
              var t := vm.currentSession.value.targetPattern.targetGrid;
              c == (if p.row < |t| && p.column < |t[p.row]| then t[p.row][p.column] else Background)
  {
    match vm.currentSession
    case None => Background
    case Some(s) =>
      var t := s.targetPattern.targetGrid;
      if p.row < |t| && p.column < |t[p.row]| then t[p.row][p.column] else Background
  }

  /** `isTileCorrect`: the two lookups agree. */
  predicate IsTileCorrect(vm: GameVM, p: GridPosition) {
    TileColorAt(vm, p) == TargetColorAt(vm, p)
  }

  /** `isTileHinted`: the tile's hint flag, false past the grid or without a game. */
  function IsTileHinted(vm: GameVM, p: GridPosition): (b: bool)
    ensures b <==> (&& vm.currentSession.Some?
                    && p.row < |vm.currentSession.value.currentGrid|
                    && p.column < |vm.currentSession.value.currentGrid[p.row]|
                    && vm.currentSession.value.currentGrid[p.row][p.column].isHinted)
  {
    match vm.currentSession
    case None => false
    case Some(s) =>
      p.row < |s.currentGrid| && p.column < |s.currentGrid[p.row]| && s.currentGrid[p.row][p.column].isHinted
  }

  /** Past the grid both lookups give background, so such a tile always counts as correct. */
  lemma OutsideGridIsCorrect(vm: GameVM, p: GridPosition)
    requires Valid(vm) && vm.currentSession.Some?
    requires !InBounds(p, vm.currentSession.value.difficulty.GridSize())
    ensures IsTileCorrect(vm, p) && !IsTileHinted(vm, p)
  {
  }

  /** Inside the grid, a tile is correct exactly when it shows its target colour. */
  lemma InsideGridCorrectness(vm: GameVM, p: GridPosition)
    requires Valid(vm) && vm.currentSession.Some? && InBounds(p, vm.currentSession.value.difficulty.GridSize())
    ensures IsTileCorrect(vm, p)
            <==> vm.currentSession.value.currentGrid[p.row][p.column].color
                 == vm.currentSession.value.targetPattern.targetGrid[p.row][p.column]
  {
  }

  /** Correct tiles among the first j columns of row i. */
  function CorrectInRow(vm: GameVM, i: nat, j: nat): (k: nat)
    ensures k <= j
    ensures k == j <==> forall c :: 0 <= c < j ==> IsTileCorrect(vm, GridPosition(i, c))
    decreases j
  {
    if j == 0 then 0 else CorrectInRow(vm, i, j - 1) + (if IsTileCorrect(vm, GridPosition(i, j - 1)) then 1 else 0)
  }

  /** Correct tiles in the first i rows of an n-column grid. */
  function CorrectRows(vm: GameVM, n: nat, i: nat): (k: nat)
    ensures k <= i * n
    ensures k == i * n <==> forall a, c :: 0 <= a < i && 0 <= c < n ==> IsTileCorrect(vm, GridPosition(a, c))
    decreases i
  {
    if i == 0 then 0
    else
      var k := CorrectRows(vm, n, i - 1) + CorrectInRow(vm, i - 1, n);
      assert i * n == (i - 1) * n + n;
      k
  }

  /** `getCompletionPercentage`: the share of correct tiles; 0 without a game, 1 exactly when the grid matches. */
  method CompletionPercentage(vm: GameVM) returns (r: real)
    requires Valid(vm)
    ensures vm.currentSession.None? ==> r == 0.0
    ensures 0.0 <= r <= 1.0
    ensures vm.currentSession.Some? ==>
              var n := |vm.currentSession.value.currentGrid|;
              r == CorrectRows(vm, n, n) as real / (n * n) as real
    ensures vm.currentSession.Some? ==>
              (r == 1.0 <==> Matches(vm.currentSession.value.currentGrid, vm.currentSession.value.targetPattern.targetGrid))
  {
    if vm.currentSession.None? {
      return 0.0;
    }
    var n := |vm.currentSession.value.currentGrid|;
    var correctTiles := CountCorrect(vm, n);
    AllCorrectIffMatches(vm);
    ShareBounds(correctTiles, n * n);
    r := correctTiles as real / (n * n) as real;
  }

  /** The outer loop of `getCompletionPercentage`: count the correct tiles row by row. */
  method CountCorrect(vm: GameVM, n: nat) returns (k: nat)
    requires Valid(vm) && vm.currentSession.Some? && n == |vm.currentSession.value.currentGrid|
    ensures k == CorrectRows(vm, n, n)
  {
    var s := vm.currentSession.value;
    k := 0;
    var row := 0;
    while row < n
      invariant 0 <= row <= n
      invariant k == CorrectRows(vm, n, row)
    {
      var inRow := CountCorrectInRow(vm, row, |s.currentGrid[row]|);
      k := k + inRow;
      row := row + 1;
    }
  }

  /** The inner loop of `getCompletionPercentage`: count the correct tiles of one row. */
  method CountCorrectInRow(vm: GameVM, row: nat, width: nat) returns (k: nat)
    ensures k == CorrectInRow(vm, row, width)
  {
    k := 0;
    var col := 0;
    while col < width
      invariant 0 <= col <= width
      invariant k == CorrectInRow(vm, row, col)
    {
      if IsTileCorrect(vm, GridPosition(row, col)) {
        k := k + 1;
      }
      col := col + 1;
    }
  }

  /** Every tile of the grid is correct exactly when the grid matches its target. */
  lemma AllCorrectIffMatches(vm: GameVM)
    requires Valid(vm) && vm.currentSession.Some?
    ensures var s := vm.currentSession.value;
            var n := |s.currentGrid|;
            n > 0 && (CorrectRows(vm, n, n) == n * n <==> Matches(s.currentGrid, s.targetPattern.targetGrid))
  {
    var s := vm.currentSession.value;
    var n := |s.currentGrid|;
    forall a, c | 0 <= a < n && 0 <= c < n
      ensures IsTileCorrect(vm, GridPosition(a, c)) <==> s.currentGrid[a][c].color == s.targetPattern.targetGrid[a][c]
    {
      InsideGridCorrectness(vm, GridPosition(a, c));
    }
  }

  lemma ShareBounds(k: nat, t: nat)
    requires 0 < t && k <= t
    ensures 0.0 <= k as real / t as real <= 1.0
    ensures k as real / t as real == 1.0 <==> k == t
  {
  }

  /** `getFormattedTime`: "m:ss" of the clock, "0:00" without a game; read back, it is the seconds left. */
  function FormattedTime(vm: GameVM): (r: string)
    requires Valid(vm)
    ensures vm.currentSession.None? ==> r == "0:00"
    ensures vm.currentSession.Some? ==> ReadAmount(r) == vm.currentSession.value.timeRemaining
    ensures Count(r, ':') == 1
    ensures IsMinSec(r)
  {
    match vm.currentSession
    case None =>
      assert IsMinSec("0:00") by {
        assert "0:00"[..1] == "0" && "0:00"[2..] == "00";
      }
      assert Count("0:00", ':') == 1 by {
        var z := "0:00";
        assert z[1..] == ":00" && z[1..][1..] == "00" && z[1..][1..][1..] == "0" && z[1..][1..][1..][1..] == "";
      }
      "0:00"
    case Some(s) =>
      var minutes := s.timeRemaining / 60;
      var seconds := s.timeRemaining % 60;
      ReadMinutesSeconds(0, minutes, seconds);
      CountNone(Decimal(minutes), ':');
      CountNone(Pad2(seconds), ':');
      CountAppend(Decimal(minutes) + ":", Pad2(seconds), ':');
      CountAppend(Decimal(minutes), ":", ':');
      MinSecShape(minutes, seconds);
      Decimal(minutes) + ":" + Pad2(seconds)
  }
}

=== FILE: onboarding.dfy ===
/**
 * Two pieces of logic from the onboarding screens: `Color.init(hex:)`, which turns a
 * "#rgb", "#rrggbb" or "#aarrggbb" string into integer (alpha, red, green, blue)
 * channels, and `DemoGameState.animateNextTile`, the ten-step cycle that fills in the
 * demo puzzle tile by tile and then starts over.
 */
module Onboarding {
  import GameModel

  // ---------------------------------------------------------------------------
  // Characters

  /** ASCII letters and digits. */
  predicate IsAlnum(c: char) {
    ('0' <= c <= '9') || ('a' <= c <= 'z') || ('A' <= c <= 'Z')
  }

  predicate IsHexDigit(c: char) {
    ('0' <= c <= '9') || ('a' <= c <= 'f') || ('A' <= c <= 'F')
  }

  function HexDigitValue(c: char): (v: nat)
    requires IsHexDigit(c)
    ensures v < 16
  {
    if '0' <= c <= '9' then c as int - '0' as int
    else if 'a' <= c <= 'f' then c as int - 'a' as int + 10
    else c as int - 'A' as int + 10
  }

  /** Lower-case hex digit, as the app writes its colours. */
  function HexDigitChar(v: nat): (c: char)
    requires v < 16
    ensures IsHexDigit(c) && IsAlnum(c) && HexDigitValue(c) == v
  {
    if v < 10 then ('0' as int + v) as char else ('a' as int + v - 10) as char
  }

  // ---------------------------------------------------------------------------
  // Trimming

  /** How many leading characters are not letters or digits. */
  function LeadingJunk(s: string): (n: nat)
    ensures n <= |s|
    ensures forall i :: 0 <= i < n ==> !IsAlnum(s[i])
    ensures n < |s| ==> IsAlnum(s[n])
    decreases |s|
  {
    if |s| > 0 && !IsAlnum(s[0]) then 1 + LeadingJunk(s[1..]) else 0
  }

  /** Where the trailing characters that are not letters or digits begin. */
  function TrailingJunkStart(s: string): (n: nat)
    ensures n <= |s|
    ensures forall i :: n <= i < |s| ==> !IsAlnum(s[i])
    ensures n > 0 ==> IsAlnum(s[n - 1])
    decreases |s|
  {
    if |s| > 0 && !IsAlnum(s[|s| - 1]) then TrailingJunkStart(s[..|s| - 1]) else |s|
  }

  /**
   * `trimmingCharacters(in: .alphanumerics.inverted)`: strip both ends down to a letter
   * or digit; what is left is a slice of the input that starts and ends with one.
   */
  function Trim(s: string): (r: string)
    ensures |r| <= |s|
    ensures |r| > 0 ==> IsAlnum(r[0]) && IsAlnum(r[|r| - 1])
    ensures |r| == 0 <==> forall k :: 0 <= k < |s| ==> !IsAlnum(s[k])
    ensures exists i, j :: 0 <= i <= j <= |s| && SliceBetween(s, r, i, j)
  {
    var n := LeadingJunk(s);
    var tail := s[n..];
    var m := TrailingJunkStart(tail);
    var r := tail[..m];
    NothingLeft(s, n, r);
    SliceBetweenJunk(s, n, m);
    r
  }

  /** r is s[i..j], with nothing but non-alphanumerics before i and from j on. */
  predicate SliceBetween(s: string, r: string, i: int, j: int) {
    && 0 <= i <= j <= |s| && r == s[i..j]
    && (forall k :: 0 <= k < i ==> !IsAlnum(s[k]))
    && (forall k :: j <= k < |s| ==> !IsAlnum(s[k]))
  }

  /** The trimmed text is the slice between the leading and the trailing junk. */
  lemma SliceBetweenJunk(s: string, n: nat, m: nat)
    requires n == LeadingJunk(s) && m == TrailingJunkStart(s[n..])
    ensures SliceBetween(s, s[n..][..m], n, n + m)
  {
    JunkAfter(s, n, m);
    assert s[n..][..m] == s[n..n + m];
  }

  /** Junk from index m of the suffix s[n..] on is junk from n + m on in s. */
  lemma JunkAfter(s: string, n: nat, m: nat)
    requires n <= |s| && forall i :: m <= i < |s| - n ==> !IsAlnum(s[n..][i])
    ensures forall k :: n + m <= k < |s| ==> !IsAlnum(s[k])
  {
    forall k | n + m <= k < |s|
      ensures !IsAlnum(s[k])
    {
      assert !IsAlnum(s[n..][k - n]);
    }
  }

  lemma NothingLeft(s: string, n: nat, r: string)
    requires n == LeadingJunk(s)
    requires r == s[n..][..TrailingJunkStart(s[n..])]
    ensures |r| == 0 <==> forall k :: 0 <= k < |s| ==> !IsAlnum(s[k])
  {
    var tail := s[n..];
    assert n < |s| ==> tail[0] == s[n];
    assert |r| > 0 ==> r[0] == s[n];
  }

  /** A string already starting and ending with a letter or digit is left as it is. */
  lemma TrimKeepsAlnumEnds(s: string)
    requires |s| > 0 && IsAlnum(s[0]) && IsAlnum(s[|s| - 1])
    ensures Trim(s) == s
  {
  }

  // ---------------------------------------------------------------------------
  // Scanning

  function Pow16(k: nat): (p: nat)
    ensures p >= 1
  {
    if k == 0 then 1 else 16 * Pow16(k - 1)
  }

  lemma Pow16Values()
    ensures Pow16(2) == 0x100 && Pow16(3) == 0x1000 && Pow16(4) == 0x1_0000
    ensures Pow16(6) == 0x100_0000 && Pow16(8) == 0x1_0000_0000
  {
    assert Pow16(1) == 16;
    assert Pow16(2) == 0x100;
    assert Pow16(3) == 0x1000;
    assert Pow16(4) == 0x1_0000;
    assert Pow16(5) == 0x10_0000;
    assert Pow16(6) == 0x100_0000;
    assert Pow16(7) == 0x1000_0000;
  }

  lemma {:induction false} Pow16Monotone(a: nat, b: nat)
    requires a <= b
    ensures Pow16(a) <= Pow16(b)
    decreases b
  {
    if a < b {
      Pow16Monotone(a, b - 1);
    }
  }

  /** The value of a string of hex digits, most significant first. */
  function HexNumber(d: string): (v: nat)
    requires forall i :: 0 <= i < |d| ==> IsHexDigit(d[i])
    ensures v < Pow16(|d|)
    decreases |d|
  {
    if |d| == 0 then 0 else HexNumber(d[..|d| - 1]) * 16 + HexDigitValue(d[|d| - 1])
  }

  /** Length of the leading run of hex digits. */
  function HexRun(s: string): (n: nat)
    ensures n <= |s|
    ensures forall i :: 0 <= i < n ==> IsHexDigit(s[i])
    ensures n < |s| ==> !IsHexDigit(s[n])
    decreases |s|
  {
    if |s| > 0 && IsHexDigit(s[0]) then 1 + HexRun(s[1..]) else 0
  }

  /** The hex digits of `s` run up to `n` and stop there. */
  predicate RunEndsAt(s: string, n: int) {
    0 <= n <= |s| && (forall i :: 0 <= i < n ==> IsHexDigit(s[i])) && (n == |s| || !IsHexDigit(s[n]))
  }

  /** `scanHexInt64`: the value of the leading run of hex digits, 0 when there is none. */
  function ScanHex(s: string): (v: nat)
    ensures v < Pow16(|s|)
    ensures (forall i :: 0 <= i < |s| ==> IsHexDigit(s[i])) ==> v == HexNumber(s)
    ensures |s| == 0 || !IsHexDigit(s[0]) ==> v == 0
  {
    var n := HexRun(s);
    Pow16Monotone(n, |s|);
    WholeRunIfAllHex(s);
    HexNumber(s[..n])
  }

  /** Wherever the leading run of hex digits stops, the scan reads exactly the digits before it. */
  lemma ScanHexStopsAtRunEnd(s: string, n: int)
    requires RunEndsAt(s, n)
    ensures ScanHex(s) == HexNumber(s[..n])
  {
  }

  lemma WholeRunIfAllHex(s: string)
    ensures (forall i :: 0 <= i < |s| ==> IsHexDigit(s[i])) ==> s[..HexRun(s)] == s
  {
    if forall i :: 0 <= i < |s| ==> IsHexDigit(s[i]) {
      HexRunAll(s);
    }
  }

  lemma {:induction false} HexNumberAppend(x: string, y: string)
    requires forall i :: 0 <= i < |x| ==> IsHexDigit(x[i])
    requires forall i :: 0 <= i < |y| ==> IsHexDigit(y[i])
    ensures HexNumber(x + y) == HexNumber(x) * Pow16(|y|) + HexNumber(y)
    decreases |y|
  {
    var xy := x + y;
    if |y| == 0 {
      assert xy == x;
    } else {
      var y' := y[..|y| - 1];
      var d := HexDigitValue(y[|y| - 1]);
      assert xy[..|xy| - 1] == x + y';
      assert xy[|xy| - 1] == y[|y| - 1];
      HexNumberAppend(x, y');
      Regroup(HexNumber(x), Pow16(|y'|), HexNumber(y'), d, HexNumber(xy), HexNumber(y), Pow16(|y|));
    }
  }

  /** The arithmetic step of `HexNumberAppend`, kept apart from the sequence reasoning. */
  lemma Regroup(a: int, p: int, b: int, d: int, whole: int, tail: int, q: int)
    requires whole == (a * p + b) * 16 + d && tail == b * 16 + d && q == 16 * p
    ensures whole == a * q + tail
  {
  }

  lemma {:induction false} HexRunAll(s: string)
    requires forall i :: 0 <= i < |s| ==> IsHexDigit(s[i])
    ensures HexRun(s) == |s|
    decreases |s|
  {
    if |s| > 0 {
      HexRunAll(s[1..]);
    }
  }

  // ---------------------------------------------------------------------------
  // Channels

  datatype Argb = Argb(a: nat, r: nat, g: nat, b: nat) {
    predicate InByteRange() {
      a <= 255 && r <= 255 && g <= 255 && b <= 255
    }
  }

  /** The channels `Color.init(hex:)` produces for anything but 3, 6 or 8 digits. */
  const Fallback: Argb := Argb(1, 1, 1, 0)

  /**
   * `Color.init(hex:)`, integer part: the trimmed length picks the format, the scanned
   * value is split into channels by shifts and masks. Every channel fits a byte, and the
   * channels put back together give the scanned value.
   */
  function ParseHex(s: string): (c: Argb)
    ensures c.InByteRange()
    ensures |Trim(s)| !in {3, 6, 8} ==> c == Fallback
    ensures |Trim(s)| == 3 ==>
              && c.a == 255 && c.r % 17 == 0 && c.g % 17 == 0 && c.b % 17 == 0
              && (c.r / 17) * 0x100 + (c.g / 17) * 0x10 + c.b / 17 == ScanHex(Trim(s))
    ensures |Trim(s)| == 6 ==> c.a == 255 && c.r * 0x1_0000 + c.g * 0x100 + c.b == ScanHex(Trim(s))
    ensures |Trim(s)| == 8 ==> c.a * 0x100_0000 + c.r * 0x1_0000 + c.g * 0x100 + c.b == ScanHex(Trim(s))
  {
    var h := Trim(s);
    var v := ScanHex(h);
    Pow16Values();
    if |h| == 3 then Channels3(v)
    else if |h| == 6 then Channels6(v)
    else if |h| == 8 then Channels8(v)
    else Fallback
  }

  /** "rgb": each nibble doubled into a byte, opaque. */
  function Channels3(v: nat): (c: Argb)
    requires v < 0x1000
    ensures c.InByteRange()
    ensures && c.a == 255 && c.r % 17 == 0 && c.g % 17 == 0 && c.b % 17 == 0
            && (c.r / 17) * 0x100 + (c.g / 17) * 0x10 + c.b / 17 == v
  {
    Nibbles(v);
    Times17(v / 0x100);
    Times17(v / 0x10 % 0x10);
    Times17(v % 0x10);
    Argb(255, (v / 0x100) * 17, (v / 0x10 % 0x10) * 17, (v % 0x10) * 17)
  }

  /** "rrggbb": three bytes, opaque. */
  function Channels6(v: nat): (c: Argb)
    requires v < 0x100_0000
    ensures c.InByteRange()
    ensures c.a == 255 && c.r * 0x1_0000 + c.g * 0x100 + c.b == v
  {
    Bytes(v);
    Argb(255, v / 0x1_0000, v / 0x100 % 0x100, v % 0x100)
  }

  /** "aarrggbb": four bytes, alpha first. */
  function Channels8(v: nat): (c: Argb)
    requires v < 0x1_0000_0000
    ensures c.InByteRange()
    ensures c.a * 0x100_0000 + c.r * 0x1_0000 + c.g * 0x100 + c.b == v
  {
    Bytes(v);
    Bytes(v / 0x100);
    Argb(v / 0x100_0000, v / 0x1_0000 % 0x100, v / 0x100 % 0x100, v % 0x100)
  }

  /** `x * 17` repeats a nibble in both halves of a byte. */
  lemma Times17(x: nat)
    requires x < 16
    ensures x * 17 <= 255 && (x * 17) % 17 == 0 && (x * 17) / 17 == x
  {
  }

  /** Splitting a value at byte boundaries. */
  lemma Bytes(v: nat)
    ensures v / 0x1_0000 == (v / 0x100) / 0x100
    ensures v / 0x100_0000 == (v / 0x1_0000) / 0x100
    ensures v < 0x100_0000 ==> v / 0x1_0000 < 0x100
    ensures v < 0x1_0000_0000 ==> v / 0x100_0000 < 0x100
    ensures v == (v / 0x1_0000) * 0x1_0000 + (v / 0x100 % 0x100) * 0x100 + v % 0x100
    ensures v == (v / 0x100_0000) * 0x100_0000 + (v / 0x1_0000 % 0x100) * 0x1_0000 + (v / 0x100 % 0x100) * 0x100 + v % 0x100
  {
    var q := v / 0x100;
    var q2 := q / 0x100;
    var q3 := q2 / 0x100;
    assert v == q * 0x100 + v % 0x100;
    assert q == q2 * 0x100 + q % 0x100;
    assert q2 == q3 * 0x100 + q2 % 0x100;
    assert v == q2 * 0x1_0000 + (q % 0x100) * 0x100 + v % 0x100;
    assert v / 0x1_0000 == q2;
    assert v == q3 * 0x100_0000 + (q2 % 0x100) * 0x1_0000 + (q % 0x100) * 0x100 + v % 0x100;
    assert v / 0x100_0000 == q3;
  }

  /** Splitting a value below 2^12 into nibbles. */
  lemma Nibbles(v: nat)
    requires v < 0x1000
    ensures v / 0x100 < 0x10
    ensures v == (v / 0x100) * 0x100 + (v / 0x10 % 0x10) * 0x10 + v % 0x10
  {
    var q := v / 0x10;
    assert v == q * 0x10 + v % 0x10;
    assert q == (q / 0x10) * 0x10 + q % 0x10;
    assert v / 0x100 == q / 0x10;
  }

  /** Two lower-case hex digits for a byte. */
  function Hex2(x: nat): (s: string)
    requires x < 256
    ensures |s| == 2 && forall i :: 0 <= i < 2 ==> IsHexDigit(s[i]) && IsAlnum(s[i])
    ensures HexNumber(s) == x
  {
    var s := [HexDigitChar(x / 16), HexDigitChar(x % 16)];
    assert s[..1] == [s[0]];
    s
  }

  /** "#rrggbb", the form the app writes its colours in. */
  function ColorHex(r: nat, g: nat, b: nat): string
    requires r < 256 && g < 256 && b < 256
  {
    "#" + Hex2(r) + Hex2(g) + Hex2(b)
  }

  lemma HexDigitsOfThree(r: nat, g: nat, b: nat)
    requires r < 256 && g < 256 && b < 256
    ensures var d := Hex2(r) + Hex2(g) + Hex2(b);
            && |d| == 6 && (forall i :: 0 <= i < 6 ==> IsHexDigit(d[i]) && IsAlnum(d[i]))
            && HexNumber(d) == r * 0x1_0000 + g * 0x100 + b
  {
    Pow16Values();
    HexNumberAppend(Hex2(r), Hex2(g));
    HexNumberAppend(Hex2(r) + Hex2(g), Hex2(b));
  }

  /** Writing a colour as "#rrggbb" and parsing it back gives the same channels, fully opaque. */
  lemma ParseHexRoundTrip(r: nat, g: nat, b: nat)
    requires r < 256 && g < 256 && b < 256
    ensures ParseHex(ColorHex(r, g, b)) == Argb(255, r, g, b)
  {
    var d := Hex2(r) + Hex2(g) + Hex2(b);
    HexDigitsOfThree(r, g, b);
    var s := ColorHex(r, g, b);
    assert s == "#" + d;
    assert s[1..] == d;
    assert LeadingJunk(s[1..]) == 0;
    assert LeadingJunk(s) == 1;
    assert TrailingJunkStart(d) == 6;
    assert Trim(s) == d;
    HexRunAll(d);
    assert d[..6] == d;
    assert ScanHex(d) == r * 0x1_0000 + g * 0x100 + b;
    SplitBytes(r, g, b);
  }

  lemma SplitBytes(r: nat, g: nat, b: nat)
    requires r < 256 && g < 256 && b < 256
    ensures var v := r * 0x1_0000 + g * 0x100 + b;
            v / 0x1_0000 == r && v / 0x100 % 0x100 == g && v % 0x100 == b
  {
    var v := r * 0x1_0000 + g * 0x100 + b;
    assert v == (r * 0x100 + g) * 0x100 + b;
    assert v / 0x100 == r * 0x100 + g;
  }

  /** A colour of the game, parsed: "#e6053a" is (255, 0xE6, 0x05, 0x3A). */
  lemma SecondaryChannels()
    ensures ParseHex(GameModel.TileColor.Secondary.Hex()) == Argb(255, 0xe6, 0x05, 0x3a)
  {
    assert Hex2(0xe6) == "e6" && Hex2(0x05) == "05" && Hex2(0x3a) == "3a";
    assert GameModel.TileColor.Secondary.Hex() == ColorHex(0xe6, 0x05, 0x3a);
    ParseHexRoundTrip(0xe6, 0x05, 0x3a);
  }

  // ---------------------------------------------------------------------------
  // The demo puzzle

  const DemoSize: nat := 3
  const DemoBackground: string := "#0e0e0e"

  /** The demo's target: green corners, red edges, an orange centre. */
  function DemoTarget(): seq<seq<string>> {
    [["#28a809", "#e6053a", "#28a809"],
     ["#e6053a", "#d17305", "#e6053a"],
     ["#28a809", "#e6053a", "#28a809"]]
  }

  /** The demo grid's shape: three rows of three tiles. */
  predicate Is3x3<T>(g: seq<seq<T>>) {
    |g| == 3 && |g[0]| == 3 && |g[1]| == 3 && |g[2]| == 3
  }

  datatype DemoGameState = DemoGameState(currentPattern: seq<seq<string>>, currentTileIndex: nat)

  /** The demo grid after the first k row-major tiles have been filled in. */
  function Revealed(k: nat): (g: seq<seq<string>>)
    ensures Is3x3(g)
  {
    seq(DemoSize, i requires 0 <= i < DemoSize =>
      seq(DemoSize, j requires 0 <= j < DemoSize =>
        if DemoSize * i + j < k then DemoTarget()[i][j] else DemoBackground))
  }

  /** All background, index 0: the state the demo starts in and returns to. */
  function DemoReset(): DemoGameState {
    DemoGameState([[DemoBackground, DemoBackground, DemoBackground],
                   [DemoBackground, DemoBackground, DemoBackground],
                   [DemoBackground, DemoBackground, DemoBackground]], 0)
  }

  /** The reset grid is the one with nothing revealed. */
  lemma ResetRevealsNothing()
    ensures DemoReset() == DemoGameState(Revealed(0), 0)
  {
    var g := Revealed(0);
    forall i | 0 <= i < DemoSize
      ensures g[i] == DemoReset().currentPattern[i]
    {
    }
  }

  /** `animateNextTile`: fill in the next tile of the nine, or after the ninth start over. */
  function AnimateNextTile(d: DemoGameState): (r: DemoGameState)
    requires Is3x3(d.currentPattern)
    ensures Is3x3(r.currentPattern)
    ensures d.currentTileIndex >= DemoSize * DemoSize ==> r == DemoReset()
  {
    if d.currentTileIndex < DemoSize * DemoSize then
      var row := d.currentTileIndex / DemoSize;
      var col := d.currentTileIndex % DemoSize;
      var g := d.currentPattern;
      DemoGameState(g[row := g[row][col := DemoTarget()[row][col]]], d.currentTileIndex + 1)
    else
      DemoReset()
  }

  /** Before the ninth tile, one call shows the next row-major tile in its target colour and changes no other tile. */
  lemma NextTileEffect(d: DemoGameState)
    requires Is3x3(d.currentPattern) && d.currentTileIndex < DemoSize * DemoSize
    ensures var r := AnimateNextTile(d);
            var row := d.currentTileIndex / DemoSize;
            var col := d.currentTileIndex % DemoSize;
            && r.currentTileIndex == d.currentTileIndex + 1
            && r.currentPattern[row][col] == DemoTarget()[row][col]
            && forall i, j :: 0 <= i < DemoSize && 0 <= j < DemoSize && (i, j) != (row, col) ==>
                 r.currentPattern[i][j] == d.currentPattern[i][j]
  {
  }

  /** The demo after k firings of its timer. */
  function Animate(d: DemoGameState, k: nat): (r: DemoGameState)
    requires Is3x3(d.currentPattern)
    ensures Is3x3(r.currentPattern)
    decreases k
  {
    if k == 0 then d else AnimateNextTile(Animate(d, k - 1))
  }

  /** One more tile of a partly revealed demo reveals exactly the next one. */
  lemma RevealOneMore(k: nat)
    requires k < DemoSize * DemoSize
    ensures AnimateNextTile(DemoGameState(Revealed(k), k)) == DemoGameState(Revealed(k + 1), k + 1)
  {
    NextTileEffect(DemoGameState(Revealed(k), k));
    var r := AnimateNextTile(DemoGameState(Revealed(k), k)).currentPattern;
    forall i | 0 <= i < DemoSize
      ensures r[i] == Revealed(k + 1)[i]
    {
      assert forall j :: 0 <= j < DemoSize ==> r[i][j] == Revealed(k + 1)[i][j];
    }
  }

  /** After k ≤ 9 calls from the start, exactly the first k tiles in row-major order show the target. */
  lemma DemoProgress(k: nat)
    requires k <= DemoSize * DemoSize
    ensures Animate(DemoReset(), k) == DemoGameState(Revealed(k), k)
  {
    DemoCycle(k);
  }

  /** After any k calls from the start, the demo shows the first k mod 10 tiles and has that index. */
  lemma {:induction false} DemoCycle(k: nat)
    ensures Animate(DemoReset(), k) == DemoGameState(Revealed(k % 10), k % 10)
    decreases k
  {
    if k == 0 {
      ResetRevealsNothing();
    } else {
      DemoCycle(k - 1);
      var j, c := (k - 1) % 10, k % 10;
      NextRemainder(k, j, c);
      if j < 9 {
        RevealStep(k, j);
      } else {
        ResetStep(k);
      }
    }
  }

  lemma RevealStep(k: nat, j: nat)
    requires k > 0 && j < 9 && Animate(DemoReset(), k - 1) == DemoGameState(Revealed(j), j)
    ensures Animate(DemoReset(), k) == DemoGameState(Revealed(j + 1), j + 1)
  {
    RevealOneMore(j);
  }

  lemma ResetStep(k: nat)
    requires k > 0 && Animate(DemoReset(), k - 1) == DemoGameState(Revealed(9), 9)
    ensures Animate(DemoReset(), k) == DemoGameState(Revealed(0), 0)
  {
    ResetRevealsNothing();
  }

  /** Counting calls modulo ten: one more call adds one, or wraps from 9 to 0. */
  lemma NextRemainder(k: nat, j: nat, c: nat)
    requires k > 0 && j == (k - 1) % 10 && c == k % 10
    ensures j < 9 ==> c == j + 1
    ensures j >= 9 ==> j == 9 && c == 0
  {
  }

  /** The demo is periodic: the tenth call starts over, so any k + 10 calls equal k calls. */
  lemma DemoPeriod(k: nat)
    ensures Animate(DemoReset(), k + 10) == Animate(DemoReset(), k)
  {
    DemoCycle(k + 10);
    DemoCycle(k);
    assert (k + 10) % 10 == k % 10;
  }

  /** The tenth call finds all nine tiles shown and starts over. */
  lemma TenthCallResets()
    ensures Animate(DemoReset(), 10) == DemoReset()
  {
    DemoCycle(10);
    ResetRevealsNothing();
  }

  /** A fully revealed demo shows the whole target. */
  lemma NineCallsShowTarget()
    ensures Animate(DemoReset(), 9).currentPattern == DemoTarget()
  {
    DemoProgress(9);
    var g := Revealed(9);
    forall i | 0 <= i < DemoSize
      ensures g[i] == DemoTarget()[i]
    {
    }
  }
}

=== FILE: prelude.dfy ===
/** Shared vocabulary: optional values, calendar days and clamping. */
module Prelude {

  /** Swift's `T?`. */
  datatype Option<+T> = None | Some(value: T)

  /** Timestamps are whole seconds; a calendar day is a block of 86400 of them. */
  const SecondsPerDay: int := 86400

  /** The calendar day a timestamp falls on (Euclidean division rounds towards minus infinity). */
  function Day(t: int): (d: int)
    ensures d * SecondsPerDay <= t < (d + 1) * SecondsPerDay
  {
    t / SecondsPerDay
  }

  /** A timestamp lies on day d exactly when it falls in [d·86400, (d+1)·86400). */
  lemma DayWindow(t: int, d: int)
    ensures Day(t) == d <==> d * SecondsPerDay <= t < (d + 1) * SecondsPerDay
  {
  }

  function Min(a: int, b: int): int { if a <= b then a else b }

  function Max(a: int, b: int): int { if a >= b then a else b }

  function MinReal(a: real, b: real): real { if a <= b then a else b }

  /** Distance between two integers. */
  function Dist(a: int, b: int): nat { if a <= b then b - a else a - b }

  /** `max(lo, min(hi, x))`: the point of [lo, hi] nearest to x. */
  function Clamp(lo: int, hi: int, x: int): (r: int)
    requires lo <= hi
    ensures lo <= r <= hi
    ensures lo <= x <= hi ==> r == x
    ensures forall y :: lo <= y <= hi ==> Dist(r, x) <= Dist(y, x)
  {
    Max(lo, Min(hi, x))
  }

  lemma ClampIdempotent(lo: int, hi: int, x: int)
    requires lo <= hi
    ensures Clamp(lo, hi, Clamp(lo, hi, x)) == Clamp(lo, hi, x)
  {
  }
}

=== FILE: text_format.dfy ===
/**
 * Decimal rendering (`%d`, `%02d`, string interpolation of an Int) and a reader
 * for the clock ("h:mm:ss", "m:ss") and duration ("H hr M min") strings built from it.
 *
 * The reader is the specification device for the formatters: digits accumulate a
 * field; ':' and 'h' close a field and shift the running total one sexagesimal
 * place; 'm' closes the last field; every other character is ignored.
 */
module TextFormat {

  predicate IsDigit(c: char) {
    '0' <= c <= '9'
  }

  function DigitChar(d: nat): (c: char)
    requires d < 10
    ensures IsDigit(c)
  {
    ('0' as int + d) as char
  }

  function DigitValue(c: char): int {
    c as int - '0' as int
  }

  /** The decimal digits of n, without leading zeros. */
  function Decimal(n: nat): (s: string)
    ensures |s| >= 1
    ensures forall i :: 0 <= i < |s| ==> IsDigit(s[i])
    ensures n >= 10 ==> s[0] != '0'
    ensures (|s| == 1 <==> n < 10) && (n < 100 ==> |s| <= 2)
    decreases n
  {
    if n < 10 then [DigitChar(n)] else Decimal(n / 10) + [DigitChar(n % 10)]
  }

  /** `%02d`: at least two digits, padded with a leading zero. */
  function Pad2(n: nat): (s: string)
    ensures |s| >= 2 && (n < 100 ==> |s| == 2)
    ensures forall i :: 0 <= i < |s| ==> IsDigit(s[i])
  {
    if n < 10 then "0" + Decimal(n) else Decimal(n)
  }

  /** A numeral as `%d` writes a natural number: digits, with no leading zero unless it is "0" itself. */
  predicate IsNumeral(s: string) {
    |s| >= 1 && (forall i :: 0 <= i < |s| ==> IsDigit(s[i])) && (|s| > 1 ==> s[0] != '0')
  }

  /** A `%02d` field of a clock: exactly two digits, the first at most 5, so the value is below 60. */
  predicate IsClockField(s: string) {
    |s| == 2 && '0' <= s[0] <= '5' && IsDigit(s[1])
  }

  /** "m:ss": a numeral, a colon and a clock field. */
  predicate IsMinSec(r: string) {
    |r| >= 4 && IsNumeral(r[..|r| - 3]) && r[|r| - 3] == ':' && IsClockField(r[|r| - 2..])
  }

  /** "h:mm:ss": an "h:mm" in front of a colon and a clock field. */
  predicate IsHourMinSec(r: string) {
    |r| >= 7 && IsMinSec(r[..|r| - 3]) && r[|r| - 3] == ':' && IsClockField(r[|r| - 2..])
  }

  lemma DecimalIsNumeral(n: nat)
    ensures IsNumeral(Decimal(n))
  {
  }

  /** `%02d` of a value below 60 is a clock field. */
  lemma Pad2IsClockField(n: nat)
    requires n < 60
    ensures IsClockField(Pad2(n))
  {
    if n >= 10 {
      assert Decimal(n / 10) == [DigitChar(n / 10)];
      assert Pad2(n) == [DigitChar(n / 10), DigitChar(n % 10)];
    }
  }

  /** `%d:%02d` with seconds below 60 has the "m:ss" shape. */
  lemma MinSecShape(m: nat, s: nat)
    requires s < 60
    ensures IsMinSec(Decimal(m) + ":" + Pad2(s))
  {
    var r := Decimal(m) + ":" + Pad2(s);
    Pad2IsClockField(s);
    DecimalIsNumeral(m);
    assert r[..|r| - 3] == Decimal(m);
    assert r[|r| - 2..] == Pad2(s);
  }

  /** `%d:%02d:%02d` with minutes and seconds below 60 has the "h:mm:ss" shape. */
  lemma HourMinSecShape(h: nat, m: nat, s: nat)
    requires m < 60 && s < 60
    ensures IsHourMinSec(Decimal(h) + ":" + Pad2(m) + ":" + Pad2(s))
  {
    var x := Decimal(h) + ":" + Pad2(m);
    var r := x + ":" + Pad2(s);
    MinSecShape(h, m);
    Pad2IsClockField(s);
    assert r[..|r| - 3] == x;
    assert r[|r| - 2..] == Pad2(s);
  }

  /** Occurrences of a character. */
  function Count(s: string, c: char): nat {
    if |s| == 0 then 0 else (if s[0] == c then 1 else 0) + Count(s[1..], c)
  }

  lemma {:induction false} CountAppend(x: string, y: string, c: char)
    ensures Count(x + y, c) == Count(x, c) + Count(y, c)
    decreases |x|
  {
    if |x| == 0 {
      assert x + y == y;
    } else {
      assert (x + y)[1..] == x[1..] + y;
      CountAppend(x[1..], y, c);
    }
  }

  lemma {:induction false} CountNone(s: string, c: char)
    requires forall i :: 0 <= i < |s| ==> s[i] != c
    ensures Count(s, c) == 0
    decreases |s|
  {
    if |s| > 0 {
      CountNone(s[1..], c);
    }
  }

  // ---------------------------------------------------------------------------
  // Reading back

  datatype Reading = Reading(total: int, current: int)

  function Step(acc: Reading, c: char): Reading {
    if IsDigit(c) then Reading(acc.total, acc.current * 10 + DigitValue(c))
    else if c == ':' || c == 'h' then Reading((acc.total + acc.current) * 60, 0)
    else if c == 'm' then Reading(acc.total + acc.current, 0)
    else acc
  }

  function ReadFrom(acc: Reading, s: string): Reading
    decreases |s|
  {
    if |s| == 0 then acc else ReadFrom(Step(acc, s[0]), s[1..])
  }

  /** The quantity a clock or duration string denotes. */
  function ReadAmount(s: string): int {
    var r := ReadFrom(Reading(0, 0), s);
    r.total + r.current
  }

  lemma {:induction false} ReadFromAppend(acc: Reading, x: string, y: string)
    ensures ReadFrom(acc, x + y) == ReadFrom(ReadFrom(acc, x), y)
    decreases |x|
  {
    if |x| == 0 {
      assert x + y == y;
    } else {
      assert (x + y)[1..] == x[1..] + y;
      ReadFromAppend(Step(acc, x[0]), x[1..], y);
    }
  }

  /** A rendered number read into an empty field gives the number back. */
  lemma {:induction false} ReadDecimal(t: int, n: nat)
    ensures ReadFrom(Reading(t, 0), Decimal(n)) == Reading(t, n)
    decreases n
  {
    if n >= 10 {
      ReadFromAppend(Reading(t, 0), Decimal(n / 10), [DigitChar(n % 10)]);
      ReadDecimal(t, n / 10);
    }
  }

  lemma ReadPad2(t: int, n: nat)
    ensures ReadFrom(Reading(t, 0), Pad2(n)) == Reading(t, n)
  {
    if n < 10 {
      ReadFromAppend(Reading(t, 0), "0", Decimal(n));
    }
    ReadDecimal(t, n);
  }

  /** `String(format: "%d:%02d", m, s)` read back gives m·60 + s. */
  lemma ReadMinutesSeconds(t: int, m: nat, s: nat)
    ensures ReadFrom(Reading(t, 0), Decimal(m) + ":" + Pad2(s)) == Reading((t + m) * 60, s)
  {
    ReadFromAppend(Reading(t, 0), Decimal(m) + ":", Pad2(s));
    ReadFromAppend(Reading(t, 0), Decimal(m), ":");
    ReadDecimal(t, m);
    ReadPad2((t + m) * 60, s);
  }

  /** Neither digits nor the clock separator contain the letters the reader treats as units. */
  lemma DecimalHasNoLetters(n: nat)
    ensures 'h' !in Decimal(n) && 'm' !in Decimal(n) && ':' !in Decimal(n)
  {
  }
}

=== FILE: user_model.dfy ===
/**
 * The player profile: running game statistics, achievements and their points,
 * and the profile's own record of focus sessions.
 *
 * Clock readings (`Date()`) are parameters. Each `Date()` call of the source is a
 * separate reading, so `UpdateStatistics` takes the two readings it makes.
 */
module UserModel {
  import opened Prelude
  import GameModel

  // ---------------------------------------------------------------------------
  // Achievements

  datatype AchievementType =
    FirstWin | SpeedRunner | Perfectionist | StreakMaster | PowerUpMaster | FocusGuru | DailyPlayer | WeeklyChampion
  {
    function Points(): nat {
      match this
      case FirstWin => 100
      case SpeedRunner => 250
      case Perfectionist => 300
      case StreakMaster => 500
      case PowerUpMaster => 200
      case FocusGuru => 400
      case DailyPlayer => 350
      case WeeklyChampion => 750
    }

    /** Position in `allCases`. */
    function Index(): nat {
      match this
      case FirstWin => 0
      case SpeedRunner => 1
      case Perfectionist => 2
      case StreakMaster => 3
      case PowerUpMaster => 4
      case FocusGuru => 5
      case DailyPlayer => 6
      case WeeklyChampion => 7
    }
  }

  /** `AchievementType.allCases`, in declaration order. */
  const AllAchievementTypes: seq<AchievementType> :=
    [FirstWin, SpeedRunner, Perfectionist, StreakMaster, PowerUpMaster, FocusGuru, DailyPlayer, WeeklyChampion]

  /** An achievement is unlocked exactly when it carries an unlock date. */
  datatype Achievement = Achievement(kind: AchievementType, unlockedDate: Option<int>, progress: real) {
    predicate IsUnlocked() {
      unlockedDate.Some?
    }
  }

  // ---------------------------------------------------------------------------
  // Statistics

  datatype GameStatistics = GameStatistics(
    totalGamesPlayed: int,
    totalGamesWon: int,
    totalTimePlayed: int,
    bestScore: int,
    currentStreak: int,
    longestStreak: int,
    averageCompletionTime: int,
    totalHintsUsed: int,
    totalPowerUpsUsed: int,
    favoriteGameMode: GameModel.Difficulty,
    totalFocusTime: int,
    consecutiveDaysPlayed: int,
    lastPlayDate: Option<int>)
  {
    /** Games won per game played; 0 before the first game. */
    function WinRate(): (r: real)
      ensures totalGamesPlayed <= 0 ==> r == 0.0
      ensures totalGamesPlayed > 0 ==> r * totalGamesPlayed as real == totalGamesWon as real
      ensures 0 <= totalGamesWon <= totalGamesPlayed ==> 0.0 <= r <= 1.0
    {
      if totalGamesPlayed <= 0 then 0.0 else totalGamesWon as real / totalGamesPlayed as real
    }

    /** As written: the best score divided by the number of wins; 0 before the first win. */
    function AverageScore(): (r: real)
      ensures totalGamesWon <= 0 ==> r == 0.0
      ensures totalGamesWon > 0 ==> r * totalGamesWon as real == bestScore as real
    {
      if totalGamesWon <= 0 then 0.0 else bestScore as real / totalGamesWon as real
    }
  }

  /** The statistics of a new profile. */
  const NewStatistics: GameStatistics :=
    GameStatistics(0, 0, 0, 0, 0, 0, 0, 0, 0, GameModel.Easy, 0, 0, None)

  // ---------------------------------------------------------------------------
  // Focus sessions as the profile records them

  datatype FocusType = ShortBreak | LongBreak | GameSession | Custom {
    /** Preset length in seconds. */
    function DefaultDuration(): nat {
      match this
      case ShortBreak => 300
      case LongBreak => 900
      case GameSession => 1200
      case Custom => 600
    }
  }

  datatype FocusSession = FocusSession(startTime: int, duration: int, sessionType: FocusType, isCompleted: bool, endTime: Option<int>) {
    /** Seconds until the planned end, never negative; 0 for a completed session or one without an end. */
    function RemainingTime(now: int): (r: int)
      ensures r >= 0
      ensures isCompleted || endTime.None? ==> r == 0
      ensures !isCompleted && endTime.Some? ==> (r == 0 <==> endTime.value <= now)
      ensures r > 0 ==> now + r == endTime.value
    {
      if isCompleted || endTime.None? then 0 else Max(0, endTime.value - now)
    }
  }

  datatype UserProfile = UserProfile(
    statistics: GameStatistics,
    achievements: seq<Achievement>,
    currentFocusSession: Option<FocusSession>,
    focusHistory: seq<FocusSession>)

  /** `initializeAchievements`: one locked achievement with no progress per type, at the type's position in `allCases`. */
  function InitializeAchievements(): (a: seq<Achievement>)
    ensures |a| == 8
    ensures forall i :: 0 <= i < |a| ==> !a[i].IsUnlocked() && a[i].progress == 0.0
    ensures forall k: AchievementType :: a[k.Index()].kind == k
    ensures forall i, j :: 0 <= i < j < |a| ==> a[i].kind != a[j].kind
  {
    seq(|AllAchievementTypes|, i requires 0 <= i < |AllAchievementTypes| => Achievement(AllAchievementTypes[i], None, 0.0))
  }

  function NewProfile(): UserProfile {
    UserProfile(NewStatistics, InitializeAchievements(), None, [])
  }

  // ---------------------------------------------------------------------------
  // Achievement evaluation

  /** The unlock rule `checkAchievements` applies to a still-locked achievement. */
  predicate ShouldUnlock(k: AchievementType, st: GameStatistics) {
    match k
    case FirstWin => st.totalGamesWon >= 1
    case SpeedRunner => st.averageCompletionTime <= 30 && st.totalGamesWon > 0
    case Perfectionist => false
    case StreakMaster => st.longestStreak >= 10
    case PowerUpMaster => false
    case FocusGuru => st.totalFocusTime >= 3600
    case DailyPlayer => st.consecutiveDaysPlayed >= 7
    case WeeklyChampion => false
  }

  /** The progress value `checkAchievements` records alongside. */
  function Progress(k: AchievementType, st: GameStatistics): real {
    match k
    case FirstWin => MinReal(1.0, st.totalGamesWon as real)
    case SpeedRunner =>
      if st.averageCompletionTime > 0 then MinReal(1.0, 30.0 / st.averageCompletionTime as real) else 0.0
    case Perfectionist => 0.0
    case StreakMaster => MinReal(1.0, st.longestStreak as real / 10.0)
    case PowerUpMaster => 0.0
    case FocusGuru => MinReal(1.0, st.totalFocusTime as real / 3600.0)
    case DailyPlayer => MinReal(1.0, st.consecutiveDaysPlayed as real / 7.0)
    case WeeklyChampion => 0.0
  }

  /** Progress lies in [0, 1] and, for the four rules that have a target value, reaches 1 exactly when the rule unlocks. */
  lemma ProgressMatchesRule(k: AchievementType, st: GameStatistics)
    requires st.totalGamesWon >= 0 && st.longestStreak >= 0 && st.totalFocusTime >= 0 && st.consecutiveDaysPlayed >= 0
    ensures 0.0 <= Progress(k, st) <= 1.0
    ensures k in {FirstWin, StreakMaster, FocusGuru, DailyPlayer} ==> (ShouldUnlock(k, st) <==> Progress(k, st) == 1.0)
  {
    if k == SpeedRunner && st.averageCompletionTime > 0 {
      assert 30.0 / st.averageCompletionTime as real > 0.0;
    }
  }

  /** One iteration of the `checkAchievements` loop. */
  function Reevaluate(a: Achievement, st: GameStatistics, now: int): Achievement {
    if a.IsUnlocked() then a
    else Achievement(a.kind, if ShouldUnlock(a.kind, st) then Some(now) else None, Progress(a.kind, st))
  }

  /**
   * `checkAchievements`: unlocked achievements are skipped, so unlocking is permanent;
   * each locked one is replaced, unlocked at `now` exactly when its rule holds.
   */
  function CheckAchievements(achs: seq<Achievement>, st: GameStatistics, now: int): (r: seq<Achievement>)
    ensures |r| == |achs|
    ensures forall i :: 0 <= i < |achs| ==> r[i].kind == achs[i].kind
    ensures forall i :: 0 <= i < |achs| && achs[i].IsUnlocked() ==> r[i] == achs[i]
    ensures forall i :: 0 <= i < |achs| && !achs[i].IsUnlocked() ==>
              (r[i].IsUnlocked() <==> ShouldUnlock(achs[i].kind, st))
              && (r[i].IsUnlocked() ==> r[i].unlockedDate == Some(now))
              && r[i].progress == Progress(achs[i].kind, st)
  {
    seq(|achs|, i requires 0 <= i < |achs| => Reevaluate(achs[i], st, now))
  }

  /** Once unlocked, always unlocked: a later evaluation against any statistics keeps the date. */
  lemma UnlockIsPermanent(achs: seq<Achievement>, st1: GameStatistics, st2: GameStatistics, t1: int, t2: int, i: int)
    requires 0 <= i < |achs|
    requires CheckAchievements(achs, st1, t1)[i].IsUnlocked()
    ensures CheckAchievements(CheckAchievements(achs, st1, t1), st2, t2)[i] == CheckAchievements(achs, st1, t1)[i]
  {
  }

  /** Streak Master unlocks once the longest streak reaches 10 and stays unlocked even if a later longest streak is lower. */
  lemma StreakMasterSticks(achs: seq<Achievement>, st1: GameStatistics, st2: GameStatistics, t1: int, t2: int, i: int)
    requires 0 <= i < |achs| && achs[i].kind == StreakMaster
    requires st1.longestStreak >= 10 && st2.longestStreak < 10
    ensures CheckAchievements(achs, st1, t1)[i].IsUnlocked()
    ensures CheckAchievements(CheckAchievements(achs, st1, t1), st2, t2)[i].IsUnlocked()
  {
  }

  /** Perfectionist, Power-Up Master and Weekly Champion are never unlocked by this evaluation. */
  lemma StubbedRulesNeverUnlock(achs: seq<Achievement>, st: GameStatistics, now: int, i: int)
    requires 0 <= i < |achs| && achs[i].kind in {Perfectionist, PowerUpMaster, WeeklyChampion}
    ensures CheckAchievements(achs, st, now)[i].IsUnlocked() == achs[i].IsUnlocked()
  {
  }

  // ---------------------------------------------------------------------------
  // Points

  /** `getUnlockedAchievements`: the unlocked ones, in order. */
  function UnlockedAchievements(achs: seq<Achievement>): (r: seq<Achievement>)
    ensures |r| <= |achs|
    ensures forall a :: a in r <==> a in achs && a.IsUnlocked()
  {
    if |achs| == 0 then []
    else (if achs[0].IsUnlocked() then [achs[0]] else []) + UnlockedAchievements(achs[1..])
  }

  /** The filter keeps the original order and every copy: filtering a concatenation filters each part. */
  lemma {:induction false} UnlockedAppend(a: seq<Achievement>, b: seq<Achievement>)
    ensures UnlockedAchievements(a + b) == UnlockedAchievements(a) + UnlockedAchievements(b)
    decreases |a|
  {
    if |a| == 0 {
      assert a + b == b;
    } else {
      assert (a + b)[1..] == a[1..] + b;
      UnlockedAppend(a[1..], b);
    }
  }

  /** When every achievement is unlocked the filter keeps the whole list; when none is, it keeps nothing. */
  lemma {:induction false} UnlockedExtremes(achs: seq<Achievement>)
    ensures (forall i :: 0 <= i < |achs| ==> achs[i].IsUnlocked()) ==> UnlockedAchievements(achs) == achs
    ensures (forall i :: 0 <= i < |achs| ==> !achs[i].IsUnlocked()) ==> UnlockedAchievements(achs) == []
    decreases |achs|
  {
    if |achs| > 0 {
      UnlockedExtremes(achs[1..]);
      assert (forall i :: 0 <= i < |achs| ==> achs[i].IsUnlocked()) ==> (forall i :: 0 <= i < |achs[1..]| ==> achs[1..][i].IsUnlocked());
      assert (forall i :: 0 <= i < |achs| ==> !achs[i].IsUnlocked()) ==> (forall i :: 0 <= i < |achs[1..]| ==> !achs[1..][i].IsUnlocked());
    }
  }

  function SumPoints(achs: seq<Achievement>): nat {
    if |achs| == 0 then 0 else achs[0].kind.Points() + SumPoints(achs[1..])
  }

  /** The unlocked achievements are worth no more than all of them. */
  lemma {:induction false} UnlockedPointsAtMost(achs: seq<Achievement>)
    ensures SumPoints(UnlockedAchievements(achs)) <= SumPoints(achs)
    decreases |achs|
  {
    if |achs| > 0 {
      UnlockedPointsAtMost(achs[1..]);
      SumPointsAppend(if achs[0].IsUnlocked() then [achs[0]] else [], UnlockedAchievements(achs[1..]));
    }
  }

  /** `getTotalAchievementPoints`: the points of the unlocked achievements, from 0 with none unlocked up to the full sum with all. */
  function TotalAchievementPoints(achs: seq<Achievement>): (r: nat)
    ensures r <= SumPoints(achs)
    ensures (forall i :: 0 <= i < |achs| ==> achs[i].IsUnlocked()) ==> r == SumPoints(achs)
    ensures (forall i :: 0 <= i < |achs| ==> !achs[i].IsUnlocked()) ==> r == 0
  {
    UnlockedPointsAtMost(achs);
    UnlockedExtremes(achs);
    SumPoints(UnlockedAchievements(achs))
  }

  /** Every achievement unlocked in `a` is unlocked, with the same type, in `b`. */
  predicate UnlockedWithin(a: seq<Achievement>, b: seq<Achievement>) {
    |a| == |b| && forall i :: 0 <= i < |a| ==> b[i].kind == a[i].kind && (a[i].IsUnlocked() ==> b[i].IsUnlocked())
  }

  /** Unlocking more achievements never lowers the point total. */
  lemma {:induction false} PointsMonotone(a: seq<Achievement>, b: seq<Achievement>)
    requires UnlockedWithin(a, b)
    ensures TotalAchievementPoints(a) <= TotalAchievementPoints(b)
    decreases |a|
  {
    if |a| > 0 {
      assert UnlockedWithin(a[1..], b[1..]);
      PointsMonotone(a[1..], b[1..]);
      TotalPointsUnfold(a);
      TotalPointsUnfold(b);
    }
  }

  lemma {:induction false} SumPointsAppend(x: seq<Achievement>, y: seq<Achievement>)
    ensures SumPoints(x + y) == SumPoints(x) + SumPoints(y)
    decreases |x|
  {
    if |x| > 0 {
      assert (x + y)[1..] == x[1..] + y;
      SumPointsAppend(x[1..], y);
    } else {
      assert x + y == y;
    }
  }

  /** The total takes the first achievement's points if it is unlocked, then the rest. */
  lemma TotalPointsUnfold(a: seq<Achievement>)
    requires |a| > 0
    ensures TotalAchievementPoints(a) == (if a[0].IsUnlocked() then a[0].kind.Points() else 0) + TotalAchievementPoints(a[1..])
  {
    SumPointsAppend(if a[0].IsUnlocked() then [a[0]] else [], UnlockedAchievements(a[1..]));
  }

  /** Evaluating achievements never takes points away. */
  lemma CheckNeverLosesPoints(achs: seq<Achievement>, st: GameStatistics, now: int)
    ensures TotalAchievementPoints(achs) <= TotalAchievementPoints(CheckAchievements(achs, st, now))
  {
    PointsMonotone(achs, CheckAchievements(achs, st, now));
  }

  /** All eight achievements together are worth 2850 points; a new profile has none of them. */
  lemma PointTotals()
    ensures SumPoints(InitializeAchievements()) == 2850
    ensures TotalAchievementPoints(InitializeAchievements()) == 0
  {
    var a := InitializeAchievements();
    assert UnlockedAchievements(a[7..]) == [];
    assert UnlockedAchievements(a[6..]) == [];
    assert UnlockedAchievements(a[5..]) == [];
    assert UnlockedAchievements(a[4..]) == [];
    assert UnlockedAchievements(a[3..]) == [];
    assert UnlockedAchievements(a[2..]) == [];
    assert UnlockedAchievements(a[1..]) == [];
  }

  // ---------------------------------------------------------------------------
  // Folding a finished game into the statistics

  /** As written: every type is assumed to start with 3, so the used count is the sum of `3 − remaining`. */
  function PowerUpsUsedAsWritten(left: GameModel.PowerUpCounts): int {
    (3 - left.timeBoost) + (3 - left.hintReveal) + (3 - left.colorMatch) + (3 - left.gridClear)
  }

  /** The counters of `updateStatistics` that depend on the finished game only. */
  function RecordGame(st: GameStatistics, game: GameModel.Session): (r: GameStatistics)
    ensures r.totalGamesPlayed == st.totalGamesPlayed + 1
    ensures r.totalTimePlayed == st.totalTimePlayed + game.targetPattern.difficulty.TimeLimit() - game.timeRemaining
    ensures game.gameState == GameModel.Completed ==>
              && r.totalGamesWon == st.totalGamesWon + 1
              && r.bestScore == Max(st.bestScore, game.score)
              && r.currentStreak == st.currentStreak + 1
              && r.longestStreak == Max(st.longestStreak, st.currentStreak + 1)
    ensures game.gameState != GameModel.Completed ==>
              && r.totalGamesWon == st.totalGamesWon && r.bestScore == st.bestScore
              && r.currentStreak == 0 && r.longestStreak == st.longestStreak
    ensures 0 <= st.currentStreak <= st.longestStreak ==> 0 <= r.currentStreak <= r.longestStreak
    ensures r.totalHintsUsed == st.totalHintsUsed + game.hintsUsed
    ensures r.favoriteGameMode == st.favoriteGameMode
    ensures r.totalPowerUpsUsed == st.totalPowerUpsUsed + 12 - game.powerUpsAvailable.Total()
    ensures r.averageCompletionTime == st.averageCompletionTime && r.totalFocusTime == st.totalFocusTime
    ensures r.consecutiveDaysPlayed == st.consecutiveDaysPlayed && r.lastPlayDate == st.lastPlayDate
  {
    var played := st.(totalGamesPlayed := st.totalGamesPlayed + 1,
                      totalTimePlayed := st.totalTimePlayed + game.targetPattern.difficulty.TimeLimit() - game.timeRemaining);
    var outcome :=
      if game.gameState == GameModel.Completed then
        var streak := played.currentStreak + 1;
        played.(totalGamesWon := played.totalGamesWon + 1, bestScore := Max(played.bestScore, game.score),
                currentStreak := streak, longestStreak := Max(played.longestStreak, streak))
      else
        played.(currentStreak := 0);
    outcome.(totalHintsUsed := outcome.totalHintsUsed + game.hintsUsed,
             totalPowerUpsUsed := outcome.totalPowerUpsUsed + PowerUpsUsedAsWritten(game.powerUpsAvailable))
  }

  /**
   * `updateConsecutiveDays` as written. Its second test repeats the first (same calendar
   * day), so the increment branch is unreachable and the count never grows.
   */
  function UpdateConsecutiveDays(st: GameStatistics, today: int): (r: GameStatistics)
    ensures r.consecutiveDaysPlayed == st.consecutiveDaysPlayed || r.consecutiveDaysPlayed == 1
    ensures st.lastPlayDate.None? ==> r.consecutiveDaysPlayed == 1
    ensures st.lastPlayDate.Some? && Day(st.lastPlayDate.value) == Day(today) ==> r == st
    ensures st.lastPlayDate.Some? && Day(st.lastPlayDate.value) != Day(today) ==> r.consecutiveDaysPlayed == 1
    ensures r.(consecutiveDaysPlayed := st.consecutiveDaysPlayed) == st
  {
    match st.lastPlayDate
    case None => st.(consecutiveDaysPlayed := 1)
    case Some(last) =>
      if Day(last) == Day(today) then st
      else if Day(last) == Day(today) then st.(consecutiveDaysPlayed := st.consecutiveDaysPlayed + 1)
      else st.(consecutiveDaysPlayed := 1)
  }

  /**
   * `updateStatistics(gameResult:)`. `playedAt` is the reading stored as `lastPlayDate`;
   * `now` is the later reading used by the day comparison and the unlock dates.
   */
  function UpdateStatistics(p: UserProfile, game: GameModel.Session, playedAt: int, now: int): (r: UserProfile)
    ensures r.statistics.totalGamesPlayed == p.statistics.totalGamesPlayed + 1
    ensures r.statistics.lastPlayDate == Some(playedAt)
    ensures r.statistics.consecutiveDaysPlayed == (if Day(playedAt) == Day(now) then p.statistics.consecutiveDaysPlayed else 1)
    ensures 0 <= p.statistics.currentStreak <= p.statistics.longestStreak ==> 0 <= r.statistics.currentStreak <= r.statistics.longestStreak
    ensures r.statistics.averageCompletionTime == p.statistics.averageCompletionTime
    ensures r.statistics.(lastPlayDate := p.statistics.lastPlayDate, consecutiveDaysPlayed := p.statistics.consecutiveDaysPlayed)
              == RecordGame(p.statistics, game)
    ensures r.achievements == CheckAchievements(p.achievements, r.statistics, now)
    ensures r.currentFocusSession == p.currentFocusSession && r.focusHistory == p.focusHistory
  {
    var counted := RecordGame(p.statistics, game);
    var dated := counted.(lastPlayDate := Some(playedAt));
    var st := UpdateConsecutiveDays(dated, now);
    p.(statistics := st, achievements := CheckAchievements(p.achievements, st, now))
  }

  /** Playing on consecutive days, as written: the count does not grow (here it stays at 3 where 4 was intended). */
  lemma ConsecutiveDaysAsWrittenCounterexample(p: UserProfile, game: GameModel.Session)
    requires p.statistics.lastPlayDate == Some(0) && p.statistics.consecutiveDaysPlayed == 3
    ensures UpdateStatistics(p, game, SecondsPerDay, SecondsPerDay).statistics.consecutiveDaysPlayed == 3
  {
  }

  /** Every profile reachable through `updateStatistics` keeps the initial average completion time. */
  lemma {:induction false} AverageCompletionTimeNeverChanges(p: UserProfile, games: seq<GameModel.Session>, now: int)
    ensures UpdateAll(p, games, now).statistics.averageCompletionTime == p.statistics.averageCompletionTime
    decreases |games|
  {
    if |games| > 0 {
      AverageCompletionTimeNeverChanges(UpdateStatistics(p, games[0], now, now), games[1..], now);
    }
  }

  /** A run of finished games recorded at the same clock reading. */
  function UpdateAll(p: UserProfile, games: seq<GameModel.Session>, now: int): UserProfile
    decreases |games|
  {
    if |games| == 0 then p else UpdateAll(UpdateStatistics(p, games[0], now, now), games[1..], now)
  }

  /**
   * Since the average completion time stays 0 from a new profile, Speed Runner unlocks on
   * the same evaluation as First Victory.
   */
  lemma SpeedRunnerUnlocksWithFirstWin(st: GameStatistics)
    requires st.averageCompletionTime == 0
    ensures ShouldUnlock(SpeedRunner, st) <==> ShouldUnlock(FirstWin, st)
  {
  }

  // ---------------------------------------------------------------------------
  // Corrected bookkeeping (see the findings in README.md)

  /** Power-ups actually spent: the difficulty's allowance minus what is left. */
  function PowerUpsUsedCorrected(d: GameModel.Difficulty, left: GameModel.PowerUpCounts): int {
    GameModel.Allowances(d).Total() - left.Total()
  }

  /** A fresh session has spent nothing, but the as-written formula reports 1, 4, 8 or 10 uses. */
  lemma PowerUpCountOffset(d: GameModel.Difficulty, left: GameModel.PowerUpCounts)
    ensures PowerUpsUsedAsWritten(left) == PowerUpsUsedCorrected(d, left) + 12 - GameModel.Allowances(d).Total()
    ensures PowerUpsUsedCorrected(d, GameModel.Allowances(d)) == 0
    ensures PowerUpsUsedAsWritten(GameModel.Allowances(GameModel.Expert)) == 10
    ensures PowerUpsUsedAsWritten(GameModel.Allowances(GameModel.Easy)) == 1
  {
  }

  /** Each effective power-up use adds exactly one to the corrected count. */
  lemma CorrectedCountsEachUse(s: GameModel.Session, t: GameModel.PowerUpType)
    requires GameModel.WellFormed(s) && s.powerUpsAvailable.Get(t) > 0
    ensures PowerUpsUsedCorrected(s.difficulty, GameModel.UsePowerUp(s, t).powerUpsAvailable)
            == PowerUpsUsedCorrected(s.difficulty, s.powerUpsAvailable) + 1
  {
    var r := GameModel.UsePowerUp(s, t);
    assert r.powerUpsAvailable.Get(GameModel.TimeBoost) == r.powerUpsAvailable.timeBoost;
    assert r.powerUpsAvailable.Get(GameModel.HintReveal) == r.powerUpsAvailable.hintReveal;
    assert r.powerUpsAvailable.Get(GameModel.ColorMatch) == r.powerUpsAvailable.colorMatch;
    assert r.powerUpsAvailable.Get(GameModel.GridClear) == r.powerUpsAvailable.gridClear;
  }

  /** The intended day rule: same day unchanged, the next day adds one, a gap or no earlier play starts again at 1. */
  function NextConsecutiveDays(count: int, previous: Option<int>, today: int): (r: int)
    ensures previous.None? ==> r == 1
    ensures previous.Some? && Day(previous.value) == Day(today) ==> r == count
    ensures previous.Some? && Day(previous.value) + 1 == Day(today) ==> r == count + 1
    ensures previous.Some? && Day(previous.value) + 1 < Day(today) ==> r == 1
  {
    match previous
    case None => 1
    case Some(last) =>
      if Day(last) == Day(today) then count
      else if Day(last) + 1 == Day(today) then count + 1
      else 1
  }

  /** `updateStatistics` with the previous play date read before it is overwritten, and power-ups counted against the allowance. */
  function UpdateStatisticsCorrected(p: UserProfile, game: GameModel.Session, playedAt: int, now: int): (r: UserProfile)
    ensures r.statistics.lastPlayDate == Some(playedAt)
    ensures r.statistics.consecutiveDaysPlayed
            == NextConsecutiveDays(p.statistics.consecutiveDaysPlayed, p.statistics.lastPlayDate, now)
    ensures r.statistics.totalPowerUpsUsed
            == p.statistics.totalPowerUpsUsed + PowerUpsUsedCorrected(game.difficulty, game.powerUpsAvailable)
    ensures r.achievements == CheckAchievements(p.achievements, r.statistics, now)
  {
    var counted := RecordGame(p.statistics, game);
    var fixedCount := counted.(totalPowerUpsUsed := p.statistics.totalPowerUpsUsed
                                                    + PowerUpsUsedCorrected(game.difficulty, game.powerUpsAvailable));
    var days := NextConsecutiveDays(p.statistics.consecutiveDaysPlayed, p.statistics.lastPlayDate, now);
    var st := fixedCount.(lastPlayDate := Some(playedAt), consecutiveDaysPlayed := days);
    p.(statistics := st, achievements := CheckAchievements(p.achievements, st, now))
  }

  /** Day scenarios for the corrected rule: day N then day N+1 adds one, day N then day N+3 resets to 1, a second game on day N keeps the count. */
  lemma ConsecutiveDayScenarios(p: UserProfile, game: GameModel.Session, n: int, count: int)
    requires p.statistics.lastPlayDate == Some(n * SecondsPerDay) && p.statistics.consecutiveDaysPlayed == count
    ensures UpdateStatisticsCorrected(p, game, (n + 1) * SecondsPerDay, (n + 1) * SecondsPerDay).statistics.consecutiveDaysPlayed == count + 1
    ensures UpdateStatisticsCorrected(p, game, (n + 3) * SecondsPerDay, (n + 3) * SecondsPerDay).statistics.consecutiveDaysPlayed == 1
    ensures UpdateStatisticsCorrected(p, game, n * SecondsPerDay + 60, n * SecondsPerDay + 60).statistics.consecutiveDaysPlayed == count
  {
    assert Day(n * SecondsPerDay) == n;
    assert Day((n + 1) * SecondsPerDay) == n + 1;
    assert Day((n + 3) * SecondsPerDay) == n + 3;
    assert Day(n * SecondsPerDay + 60) == n;
  }

  // ---------------------------------------------------------------------------
  // The profile's focus sessions

  /** `UserProfile.startFocusSession`: the supplied length, else the type's preset. */
  function StartFocusSession(p: UserProfile, kind: FocusType, duration: Option<int>, now: int): (r: UserProfile)
    ensures r.currentFocusSession.Some?
    ensures var s := r.currentFocusSession.value;
            && s.startTime == now && !s.isCompleted && s.sessionType == kind
            && s.duration == (if duration.Some? then duration.value else kind.DefaultDuration())
            && s.endTime == Some(now + s.duration)
    ensures r.(currentFocusSession := p.currentFocusSession) == p
  {
    var length := if duration.Some? then duration.value else kind.DefaultDuration();
    p.(currentFocusSession := Some(FocusSession(now, length, kind, false, Some(now + length))))
  }

  /** `UserProfile.completeFocusSession`: log the session as completed with its full length and add that length to the focus total. */
  function CompleteFocusSession(p: UserProfile, now: int): (r: UserProfile)
    ensures p.currentFocusSession.None? ==> r == p
    ensures p.currentFocusSession.Some? ==>
              var s := p.currentFocusSession.value;
              && r.focusHistory == p.focusHistory + [FocusSession(s.startTime, s.duration, s.sessionType, true, Some(now))]
              && r.statistics == p.statistics.(totalFocusTime := p.statistics.totalFocusTime + s.duration)
              && r.currentFocusSession.None?
              && r.achievements == CheckAchievements(p.achievements, r.statistics, now)
  {
    match p.currentFocusSession
    case None => p
    case Some(s) =>
      var done := FocusSession(s.startTime, s.duration, s.sessionType, true, Some(now));
      var st := p.statistics.(totalFocusTime := p.statistics.totalFocusTime + s.duration);
      p.(focusHistory := p.focusHistory + [done], statistics := st, currentFocusSession := None,
         achievements := CheckAchievements(p.achievements, st, now))
  }

  /** A completed hour of focus unlocks Focus Guru wherever it sits in the list, if it was still locked. */
  lemma FocusHourUnlocksGuru(p: UserProfile, kind: FocusType, now: int, later: int, i: int)
    requires p.statistics.totalFocusTime >= 0
    requires 0 <= i < |p.achievements| && p.achievements[i].kind == FocusGuru
    ensures CompleteFocusSession(StartFocusSession(p, kind, Some(3600), now), later).achievements[i].IsUnlocked()
    ensures CompleteFocusSession(StartFocusSession(p, kind, Some(3600), now), later).focusHistory
            == p.focusHistory + [FocusSession(now, 3600, kind, true, Some(later))]
  {
  }
}

=== FILE: utilities_view_model.dfy ===
/**
 * The focus-timer screen (`UtilitiesViewModel`): starting, pausing, resuming,
 * stopping and completing a focus session, the once-a-second tick, the history the
 * sessions are appended to, the daily and weekly goal ratios, the day streak, the
 * clamped settings, and the figures and strings the screen shows.
 *
 * `Date()` is the `now` parameter (whole seconds) and the repeating `Timer` is the
 * `timerScheduled` flag plus an explicit `Tick`.
 */
module UtilitiesViewModel {
  import opened Prelude
  import opened UserModel
  import opened TextFormat

  // ---------------------------------------------------------------------------
  // State

  datatype FocusState = FocusState(
    currentFocusSession: Option<FocusSession>,
    isTimerRunning: bool,
    /** Whether the repeating 1-second timer is scheduled. */
    timerScheduled: bool,
    selectedFocusType: FocusType,
    customDuration: int,
    remainingTime: int,
    focusHistory: seq<FocusSession>,
    showingFocusComplete: bool,
    totalFocusTimeToday: int,
    focusStreak: nat,
    weeklyFocusGoal: int,
    dailyFocusGoal: int,
    weeklyProgress: real,
    dailyProgress: real)

  const MinCustomDuration: int := 60
  const MaxCustomDuration: int := 7200
  const MinDailyGoal: int := 300
  const MaxDailyGoal: int := 14400
  const MinWeeklyGoal: int := 1800
  const MaxWeeklyGoal: int := 50400

  /** The settings stay inside the ranges their setters clamp to; in particular both goals are positive. */
  predicate Valid(st: FocusState) {
    && MinCustomDuration <= st.customDuration <= MaxCustomDuration
    && MinDailyGoal <= st.dailyFocusGoal <= MaxDailyGoal
    && MinWeeklyGoal <= st.weeklyFocusGoal <= MaxWeeklyGoal
  }

  // ---------------------------------------------------------------------------
  // Selecting sessions from the history

  /** The time ranges the screen sums over. */
  datatype Window = Ever | OnDay(day: int) | Since(from: int) {
    predicate Contains(t: int) {
      match this
      case Ever => true
      case OnDay(d) => Day(t) == d
      case Since(from) => from <= t
    }
  }

  predicate Counted(s: FocusSession, w: Window, completedOnly: bool) {
    (s.isCompleted || !completedOnly) && w.Contains(s.startTime)
  }

  /** `focusHistory.filter { … }`: the sessions in the window, in history order. */
  function Select(h: seq<FocusSession>, w: Window, completedOnly: bool): (r: seq<FocusSession>)
    ensures |r| <= |h|
    ensures forall s :: s in r <==> s in h && Counted(s, w, completedOnly)
    decreases |h|
  {
    if |h| == 0 then []
    else
      var init := h[..|h| - 1];
      var last := h[|h| - 1];
      assert h == init + [last];
      Select(init, w, completedOnly) + (if Counted(last, w, completedOnly) then [last] else [])
  }

  function SumDurations(h: seq<FocusSession>): int
    decreases |h|
  {
    if |h| == 0 then 0 else SumDurations(h[..|h| - 1]) + h[|h| - 1].duration
  }

  /** Seconds of completed focus in the window. */
  function Total(h: seq<FocusSession>, w: Window): int {
    SumDurations(Select(h, w, true))
  }

  lemma SelectAppend(h: seq<FocusSession>, x: FocusSession, w: Window, completedOnly: bool)
    ensures Select(h + [x], w, completedOnly)
            == Select(h, w, completedOnly) + (if Counted(x, w, completedOnly) then [x] else [])
  {
    assert (h + [x])[..|h|] == h;
  }

  lemma {:induction false} SumDurationsAppend(a: seq<FocusSession>, b: seq<FocusSession>)
    ensures SumDurations(a + b) == SumDurations(a) + SumDurations(b)
    decreases |b|
  {
    if |b| == 0 {
      assert a + b == a;
    } else {
      assert (a + b)[..|a + b| - 1] == a + b[..|b| - 1];
      SumDurationsAppend(a, b[..|b| - 1]);
    }
  }

  /** Appending a session adds its length to every window it is counted in, and nothing elsewhere. */
  lemma TotalAppend(h: seq<FocusSession>, x: FocusSession, w: Window)
    ensures Total(h + [x], w) == Total(h, w) + (if Counted(x, w, true) then x.duration else 0)
  {
    SelectAppend(h, x, w, true);
    SumDurationsAppend(Select(h, w, true), if Counted(x, w, true) then [x] else []);
    assert SumDurations([x]) == SumDurations([]) + x.duration;
  }

  /** Sessions that were not completed never count towards any total. */
  lemma IncompleteNeverCounts(h: seq<FocusSession>, x: FocusSession, w: Window)
    requires !x.isCompleted
    ensures Total(h + [x], w) == Total(h, w)
  {
    TotalAppend(h, x, w);
  }

  lemma {:induction false} TotalNonNegative(h: seq<FocusSession>, w: Window)
    requires forall i :: 0 <= i < |h| ==> h[i].duration >= 0
    ensures Total(h, w) >= 0
    decreases |h|
  {
    if |h| > 0 {
      var init := h[..|h| - 1];
      TotalNonNegative(init, w);
      assert h == init + [h[|h| - 1]];
      TotalAppend(init, h[|h| - 1], w);
    }
  }

  // ---------------------------------------------------------------------------
  // Goal ratios

  /** `min(1.0, total / goal)`. */
  function Ratio(total: int, goal: int): (r: real)
    requires goal > 0
    ensures r <= 1.0
    ensures total >= 0 ==> r >= 0.0
    ensures r == 1.0 <==> total >= goal
    ensures total < goal ==> r * goal as real == total as real
  {
    MinReal(1.0, total as real / goal as real)
  }

  /** Completed focus that started on the calendar day of `now`. */
  function DailyTotal(h: seq<FocusSession>, now: int): int {
    Total(h, OnDay(Day(now)))
  }

  /** Completed focus that started at most seven days before `now`. */
  function WeeklyTotal(h: seq<FocusSession>, now: int): int {
    Total(h, Since(now - 7 * SecondsPerDay))
  }

  /** `calculateDailyProgress`: recompute today's total and its ratio to the daily goal. */
  function CalculateDailyProgress(st: FocusState, now: int): (r: FocusState)
    requires st.dailyFocusGoal > 0
    ensures r.totalFocusTimeToday == DailyTotal(st.focusHistory, now)
    ensures r.dailyProgress == Ratio(DailyTotal(st.focusHistory, now), st.dailyFocusGoal)
    ensures r.(totalFocusTimeToday := st.totalFocusTimeToday, dailyProgress := st.dailyProgress) == st
  {
    var total := DailyTotal(st.focusHistory, now);
    st.(totalFocusTimeToday := total, dailyProgress := Ratio(total, st.dailyFocusGoal))
  }

  /** `calculateWeeklyProgress`: the ratio of the last seven days' focus to the weekly goal. */
  function CalculateWeeklyProgress(st: FocusState, now: int): (r: FocusState)
    requires st.weeklyFocusGoal > 0
    ensures r.weeklyProgress == Ratio(WeeklyTotal(st.focusHistory, now), st.weeklyFocusGoal)
    ensures r.(weeklyProgress := st.weeklyProgress) == st
  {
    st.(weeklyProgress := Ratio(WeeklyTotal(st.focusHistory, now), st.weeklyFocusGoal))
  }

  // ---------------------------------------------------------------------------
  // The day streak

  predicate HasCompletedOn(h: seq<FocusSession>, d: int) {
    exists i :: 0 <= i < |h| && h[i].isCompleted && Day(h[i].startTime) == d
  }

  /** Completed sessions that started on day d or earlier; the measure of the backward day walk. */
  function CompletedUpTo(h: seq<FocusSession>, d: int): nat
    decreases |h|
  {
    if |h| == 0 then 0
    else CompletedUpTo(h[..|h| - 1], d) + (if h[|h| - 1].isCompleted && Day(h[|h| - 1].startTime) <= d then 1 else 0)
  }

  lemma {:induction false} CompletedUpToDrops(h: seq<FocusSession>, d: int)
    ensures CompletedUpTo(h, d - 1) <= CompletedUpTo(h, d)
    ensures HasCompletedOn(h, d) ==> CompletedUpTo(h, d - 1) < CompletedUpTo(h, d)
    decreases |h|
  {
    if |h| > 0 {
      var init := h[..|h| - 1];
      CompletedUpToDrops(init, d);
      if HasCompletedOn(h, d) {
        var i :| 0 <= i < |h| && h[i].isCompleted && Day(h[i].startTime) == d;
        if i < |h| - 1 {
          assert init[i] == h[i];
          assert HasCompletedOn(init, d);
        }
      }
    }
  }

  /**
   * The number of consecutive days ending on day d that each have a completed
   * session: every day of (d - r, d] has one and day d - r has none.
   */
  function StreakFrom(h: seq<FocusSession>, d: int): (r: nat)
    ensures forall e :: d - r < e <= d ==> HasCompletedOn(h, e)
    ensures !HasCompletedOn(h, d - r)
    decreases CompletedUpTo(h, d)
  {
    if HasCompletedOn(h, d) then
      CompletedUpToDrops(h, d);
      1 + StreakFrom(h, d - 1)
    else
      0
  }

  /** `focusHistory.contains { startTime in [dayStart, dayEnd) && isCompleted }`. */
  method DayHasSessions(h: seq<FocusSession>, dayStart: int, dayEnd: int) returns (found: bool)
    ensures found <==> exists i :: 0 <= i < |h| && h[i].isCompleted && dayStart <= h[i].startTime < dayEnd
  {
    found := false;
    var i := 0;
    while i < |h|
      invariant 0 <= i <= |h|
      invariant found <==> exists j :: 0 <= j < i && h[j].isCompleted && dayStart <= h[j].startTime < dayEnd
    {
      if h[i].isCompleted && dayStart <= h[i].startTime < dayEnd {
        found := true;
      }
      i := i + 1;
    }
  }

  /** `updateFocusStreak`: walk back one day at a time from today while the day has a completed session. */
  method UpdateFocusStreak(h: seq<FocusSession>, now: int) returns (streak: nat)
    ensures forall e :: Day(now) - streak < e <= Day(now) ==> HasCompletedOn(h, e)
    ensures !HasCompletedOn(h, Day(now) - streak)
    ensures streak == StreakFrom(h, Day(now))
  {
    streak := 0;
    var day := Day(now);
    while true
      invariant day == Day(now) - streak
      invariant StreakFrom(h, Day(now)) == streak + StreakFrom(h, day)
      decreases CompletedUpTo(h, day)
    {
      var dayStart := day * SecondsPerDay;
      var dayHasSessions := DayHasSessions(h, dayStart, dayStart + SecondsPerDay);
      assert dayHasSessions == HasCompletedOn(h, day) by {
        forall i | 0 <= i < |h|
          ensures (dayStart <= h[i].startTime < dayStart + SecondsPerDay) == (Day(h[i].startTime) == day)
        {
          DayWindow(h[i].startTime, day);
        }
      }
      if dayHasSessions {
        CompletedUpToDrops(h, day);
        streak := streak + 1;
        day := day - 1;
      } else {
        break;
      }
    }
  }

  // ---------------------------------------------------------------------------
  // Transitions

  /** `init()`: the stored history, default settings, and the two ratios computed for `now`. */
  function NewFocusState(history: seq<FocusSession>, now: int): (r: FocusState)
    ensures Valid(r)
    ensures r.currentFocusSession.None? && !r.isTimerRunning && !r.timerScheduled && r.remainingTime == 0
    ensures r.focusHistory == history
    ensures r.customDuration == 600 && r.dailyFocusGoal == 1800 && r.weeklyFocusGoal == 7200
    ensures r.totalFocusTimeToday == DailyTotal(history, now)
    ensures r.dailyProgress == Ratio(DailyTotal(history, now), 1800)
    ensures r.weeklyProgress == Ratio(WeeklyTotal(history, now), 7200)
    ensures r.focusStreak == 0 && r.selectedFocusType == GameSession && !r.showingFocusComplete
  {
    var st := FocusState(None, false, false, GameSession, 600, 0, history, false, 0, 0, 7200, 1800, 0.0, 0.0);
    CalculateWeeklyProgress(CalculateDailyProgress(st, now), now)
  }

  /** The length `startFocusSession` settles on: the one supplied, else the custom setting for custom sessions, else the preset. */
  function SessionLength(st: FocusState, kind: FocusType, duration: Option<int>): int {
    match duration
    case Some(d) => d
    case None => if kind == Custom then st.customDuration else kind.DefaultDuration()
  }

  /** `startFocusSession`: a fresh session from `now`, a full countdown, and a (re)scheduled timer; any session in progress is dropped unrecorded. */
  function Start(st: FocusState, kind: FocusType, duration: Option<int>, now: int): (r: FocusState)
    ensures r.currentFocusSession.Some?
    ensures var s := r.currentFocusSession.value;
            && s.startTime == now && s.sessionType == kind && !s.isCompleted
            && s.endTime == Some(now + s.duration)
            && r.remainingTime == s.duration
            && (duration.Some? ==> s.duration == duration.value)
            && (duration.None? && kind == Custom ==> s.duration == st.customDuration)
            && (duration.None? && kind != Custom ==> s.duration == kind.DefaultDuration())
    ensures r == st.(currentFocusSession := r.currentFocusSession, remainingTime := r.remainingTime,
                     isTimerRunning := true, timerScheduled := true, selectedFocusType := kind)
    ensures Valid(st) ==> Valid(r)
  {
    var length := SessionLength(st, kind, duration);
    st.(currentFocusSession := Some(FocusSession(now, length, kind, false, Some(now + length))),
        remainingTime := length, isTimerRunning := true, selectedFocusType := kind,
        timerScheduled := true)
  }

  /** `pauseFocusSession`: stop the timer; the countdown and the session stay as they are. */
  function Pause(st: FocusState): (r: FocusState)
    ensures !r.isTimerRunning && !r.timerScheduled
    ensures r.(isTimerRunning := st.isTimerRunning, timerScheduled := st.timerScheduled) == st
  {
    st.(isTimerRunning := false, timerScheduled := false)
  }

  /** `resumeFocusSession`: restart the timer, only when there is a session. */
  function Resume(st: FocusState): (r: FocusState)
    ensures st.currentFocusSession.None? ==> r == st
    ensures st.currentFocusSession.Some? ==>
              r.isTimerRunning && r.timerScheduled
              && r.(isTimerRunning := st.isTimerRunning, timerScheduled := st.timerScheduled) == st
  {
    if st.currentFocusSession.None? then st
    else st.(isTimerRunning := true, timerScheduled := true)
  }

  /** `stopFocusSession`: record the session as abandoned, with the time actually spent, and clear it. */
  function Stop(st: FocusState, now: int): (r: FocusState)
    ensures r.currentFocusSession.None? && r.remainingTime == 0 && !r.isTimerRunning && !r.timerScheduled
    ensures st.currentFocusSession.None? ==> r.focusHistory == st.focusHistory
    ensures st.currentFocusSession.Some? ==>
              var s := st.currentFocusSession.value;
              r.focusHistory == st.focusHistory + [FocusSession(s.startTime, now - s.startTime, s.sessionType, false, Some(now))]
    ensures |st.focusHistory| <= |r.focusHistory| <= |st.focusHistory| + 1
    ensures r == st.(currentFocusSession := None, remainingTime := 0, isTimerRunning := false,
                     timerScheduled := false, focusHistory := r.focusHistory)
    ensures Valid(st) ==> Valid(r)
  {
    var history :=
      match st.currentFocusSession
      case None => st.focusHistory
      case Some(s) => st.focusHistory + [FocusSession(s.startTime, now - s.startTime, s.sessionType, false, Some(now))];
    st.(timerScheduled := false, isTimerRunning := false, focusHistory := history,
        currentFocusSession := None, remainingTime := 0)
  }

  /** An abandoned session adds nothing to any total. */
  lemma StopNeverCounts(st: FocusState, now: int, w: Window)
    ensures Total(Stop(st, now).focusHistory, w) == Total(st.focusHistory, w)
  {
    if st.currentFocusSession.Some? {
      var s := st.currentFocusSession.value;
      IncompleteNeverCounts(st.focusHistory, FocusSession(s.startTime, now - s.startTime, s.sessionType, false, Some(now)), w);
    }
  }

  /**
   * `completeFocusSession`: record the session as completed with its full requested
   * length, clear it, and recompute today's total, both ratios and the streak. The
   * repeating timer is not cancelled here.
   */
  function Complete(st: FocusState, now: int): (r: FocusState)
    requires Valid(st)
    ensures Valid(r)
    ensures st.currentFocusSession.None? ==> r == st
    ensures st.currentFocusSession.Some? ==>
              var s := st.currentFocusSession.value;
              && r.focusHistory == st.focusHistory + [FocusSession(s.startTime, s.duration, s.sessionType, true, Some(now))]
              && r.currentFocusSession.None? && !r.isTimerRunning && r.remainingTime == 0
              && r.showingFocusComplete
              && r.totalFocusTimeToday == DailyTotal(r.focusHistory, now)
              && r.dailyProgress == Ratio(DailyTotal(r.focusHistory, now), st.dailyFocusGoal)
              && r.weeklyProgress == Ratio(WeeklyTotal(r.focusHistory, now), st.weeklyFocusGoal)
              && r.focusStreak == StreakFrom(r.focusHistory, Day(now))
              && r == st.(focusHistory := r.focusHistory, currentFocusSession := None, isTimerRunning := false,
                          remainingTime := 0, showingFocusComplete := true,
                          totalFocusTimeToday := r.totalFocusTimeToday, dailyProgress := r.dailyProgress,
                          weeklyProgress := r.weeklyProgress, focusStreak := r.focusStreak)
  {
    match st.currentFocusSession
    case None => st
    case Some(s) =>
      var done := FocusSession(s.startTime, s.duration, s.sessionType, true, Some(now));
      var st1 := st.(focusHistory := st.focusHistory + [done], currentFocusSession := None,
                     isTimerRunning := false, remainingTime := 0, showingFocusComplete := true);
      // updateFocusStatistics: the increment is overwritten by the recomputation that follows it
      var st2 := st1.(totalFocusTimeToday := st1.totalFocusTimeToday + done.duration);
      var st3 := CalculateWeeklyProgress(CalculateDailyProgress(st2, now), now);
      st3.(focusStreak := StreakFrom(st3.focusHistory, Day(now)))
  }

  /** Completing a session started today adds its length to today's total and makes the streak at least one day. */
  lemma CompleteCountsToday(st: FocusState, now: int)
    requires Valid(st) && st.currentFocusSession.Some?
    requires st.currentFocusSession.value.startTime <= now
    requires Day(st.currentFocusSession.value.startTime) == Day(now)
    ensures Complete(st, now).totalFocusTimeToday
            == DailyTotal(st.focusHistory, now) + st.currentFocusSession.value.duration
    ensures Complete(st, now).focusStreak >= 1
  {
    var s := st.currentFocusSession.value;
    var done := FocusSession(s.startTime, s.duration, s.sessionType, true, Some(now));
    var h := st.focusHistory + [done];
    TotalAppend(st.focusHistory, done, OnDay(Day(now)));
    assert h[|h| - 1] == done;
    assert HasCompletedOn(h, Day(now));
  }

  /** The timer's body: count down while time remains, then complete the session. */
  function Tick(st: FocusState, now: int): (r: FocusState)
    requires Valid(st)
    ensures Valid(r)
    ensures !st.timerScheduled ==> r == st
    ensures st.timerScheduled && st.remainingTime > 0 ==> r == st.(remainingTime := st.remainingTime - 1)
    ensures st.timerScheduled && st.remainingTime <= 0 ==> r == Complete(st, now)
  {
    if !st.timerScheduled then st
    else if st.remainingTime > 0 then st.(remainingTime := st.remainingTime - 1)
    else Complete(st, now)
  }

  /** k ticks, one a second, the first at `now`. */
  function Ticks(st: FocusState, k: nat, now: int): (r: FocusState)
    requires Valid(st)
    ensures Valid(r)
    decreases k
  {
    if k == 0 then st else Ticks(Tick(st, now), k - 1, now + 1)
  }

  lemma {:induction false} CountDown(st: FocusState, k: nat, now: int)
    requires Valid(st) && st.timerScheduled && st.currentFocusSession.Some? && st.remainingTime == k
    ensures Ticks(st, k + 1, now) == Complete(st.(remainingTime := 0), now + k)
    decreases k
  {
    if k > 0 {
      TickCounts(st, k, now);
      CountDown(st.(remainingTime := k - 1), k - 1, now + 1);
    }
  }

  /** One tick of a running countdown takes a second off and leaves the rest to the next tick. */
  lemma TickCounts(st: FocusState, k: nat, now: int)
    requires Valid(st) && st.timerScheduled && st.remainingTime == k && k > 0
    ensures Valid(st.(remainingTime := k - 1))
    ensures Ticks(st, k + 1, now) == Ticks(st.(remainingTime := k - 1), k, now + 1)
    ensures st.(remainingTime := k - 1).(remainingTime := 0) == st.(remainingTime := 0)
  {
  }

  /**
   * A session of d seconds started at t and left running completes on the (d+1)-th
   * tick: it is logged as completed with its full length, ending at t + d + 1.
   */
  lemma RunToCompletion(st: FocusState, kind: FocusType, d: nat, t: int)
    requires Valid(st)
    ensures var r := Ticks(Start(st, kind, Some(d), t), d + 1, t + 1);
            && r.focusHistory == st.focusHistory + [FocusSession(t, d, kind, true, Some(t + d + 1))]
            && r.currentFocusSession.None? && r.remainingTime == 0 && !r.isTimerRunning
            && r.totalFocusTimeToday == DailyTotal(r.focusHistory, t + d + 1)
  {
    var s0 := Start(st, kind, Some(d), t);
    CountDown(s0, d, t + 1);
  }

  /** Once no session is left and the countdown is at zero, further ticks of a still-scheduled timer change nothing. */
  lemma {:induction false} TicksAfterCompletionHarmless(st: FocusState, k: nat, now: int)
    requires Valid(st) && st.currentFocusSession.None? && st.remainingTime == 0
    ensures Ticks(st, k, now) == st
    decreases k
  {
    if k > 0 {
      TicksAfterCompletionHarmless(st, k - 1, now + 1);
    }
  }

  /** A paused session stands still however long the clock runs. */
  lemma {:induction false} PausedSessionStands(st: FocusState, k: nat, now: int)
    requires Valid(st)
    ensures Ticks(Pause(st), k, now) == Pause(st)
    decreases k
  {
    if k > 0 {
      PausedSessionStands(st, k - 1, now + 1);
    }
  }

  // ---------------------------------------------------------------------------
  // Settings

  /** `updateCustomDuration`: kept within one minute and two hours. */
  function UpdateCustomDuration(st: FocusState, duration: int): (r: FocusState)
    ensures MinCustomDuration <= r.customDuration <= MaxCustomDuration
    ensures MinCustomDuration <= duration <= MaxCustomDuration ==> r.customDuration == duration
    ensures duration < MinCustomDuration ==> r.customDuration == MinCustomDuration
    ensures duration > MaxCustomDuration ==> r.customDuration == MaxCustomDuration
    ensures r.(customDuration := st.customDuration) == st
    ensures Valid(st) ==> Valid(r)
  {
    st.(customDuration := Clamp(MinCustomDuration, MaxCustomDuration, duration))
  }

  /** `updateDailyGoal`: kept within five minutes and four hours; the daily ratio follows. */
  function UpdateDailyGoal(st: FocusState, goal: int, now: int): (r: FocusState)
    ensures MinDailyGoal <= r.dailyFocusGoal <= MaxDailyGoal
    ensures MinDailyGoal <= goal <= MaxDailyGoal ==> r.dailyFocusGoal == goal
    ensures goal < MinDailyGoal ==> r.dailyFocusGoal == MinDailyGoal
    ensures goal > MaxDailyGoal ==> r.dailyFocusGoal == MaxDailyGoal
    ensures r.dailyProgress == Ratio(DailyTotal(st.focusHistory, now), r.dailyFocusGoal)
    ensures r.totalFocusTimeToday == DailyTotal(st.focusHistory, now)
    ensures r == st.(dailyFocusGoal := r.dailyFocusGoal, totalFocusTimeToday := DailyTotal(st.focusHistory, now),
                     dailyProgress := r.dailyProgress)
    ensures Valid(st) ==> Valid(r)
  {
    CalculateDailyProgress(st.(dailyFocusGoal := Clamp(MinDailyGoal, MaxDailyGoal, goal)), now)
  }

  /** `updateWeeklyGoal`: kept within thirty minutes and fourteen hours; the weekly ratio follows. */
  function UpdateWeeklyGoal(st: FocusState, goal: int, now: int): (r: FocusState)
    ensures MinWeeklyGoal <= r.weeklyFocusGoal <= MaxWeeklyGoal
    ensures MinWeeklyGoal <= goal <= MaxWeeklyGoal ==> r.weeklyFocusGoal == goal
    ensures goal < MinWeeklyGoal ==> r.weeklyFocusGoal == MinWeeklyGoal
    ensures goal > MaxWeeklyGoal ==> r.weeklyFocusGoal == MaxWeeklyGoal
    ensures r.weeklyProgress == Ratio(WeeklyTotal(st.focusHistory, now), r.weeklyFocusGoal)
    ensures r == st.(weeklyFocusGoal := r.weeklyFocusGoal, weeklyProgress := r.weeklyProgress)
    ensures Valid(st) ==> Valid(r)
  {
    CalculateWeeklyProgress(st.(weeklyFocusGoal := Clamp(MinWeeklyGoal, MaxWeeklyGoal, goal)), now)
  }

  /** Setting the same value twice is the same as setting it once. */
  lemma SettersIdempotent(st: FocusState, x: int, now: int)
    ensures UpdateCustomDuration(UpdateCustomDuration(st, x), x) == UpdateCustomDuration(st, x)
    ensures UpdateDailyGoal(UpdateDailyGoal(st, x, now), x, now) == UpdateDailyGoal(st, x, now)
    ensures UpdateWeeklyGoal(UpdateWeeklyGoal(st, x, now), x, now) == UpdateWeeklyGoal(st, x, now)
  {
  }

  // ---------------------------------------------------------------------------
  // Figures over the history

  /** `getTotalFocusTime`: the completed sessions' lengths added up; nothing completed gives 0. */
  function TotalFocusTime(h: seq<FocusSession>): (r: int)
    ensures (forall i :: 0 <= i < |h| ==> !h[i].isCompleted) ==> r == 0
    ensures (forall i :: 0 <= i < |h| ==> h[i].duration >= 0) ==> r >= 0
  {
    TotalNoneCompleted(h, Ever);
    TotalNonNegativeIf(h, Ever);
    Total(h, Ever)
  }

  /** Logging a session adds its length to the total exactly when it was completed. */
  lemma TotalFocusTimeAppend(h: seq<FocusSession>, x: FocusSession)
    ensures TotalFocusTime(h + [x]) == TotalFocusTime(h) + (if x.isCompleted then x.duration else 0)
  {
    TotalAppend(h, x, Ever);
  }

  lemma TotalNonNegativeIf(h: seq<FocusSession>, w: Window)
    ensures (forall i :: 0 <= i < |h| ==> h[i].duration >= 0) ==> Total(h, w) >= 0
  {
    if forall i :: 0 <= i < |h| ==> h[i].duration >= 0 {
      TotalNonNegative(h, w);
    }
  }

  /** With no completed session, every total is 0. */
  lemma {:induction false} TotalNoneCompleted(h: seq<FocusSession>, w: Window)
    ensures (forall i :: 0 <= i < |h| ==> !h[i].isCompleted) ==> Total(h, w) == 0
    decreases |h|
  {
    if |h| > 0 && forall i :: 0 <= i < |h| ==> !h[i].isCompleted {
      var init := h[..|h| - 1];
      TotalNoneCompleted(init, w);
      assert h == init + [h[|h| - 1]];
      TotalAppend(init, h[|h| - 1], w);
    }
  }

  function CompletedCount(h: seq<FocusSession>): nat {
    |Select(h, Ever, true)|
  }

  /** `getAverageFocusTime`: mean length of the completed sessions, 0 when there are none. */
  function AverageFocusTime(h: seq<FocusSession>): (r: real)
    ensures CompletedCount(h) == 0 ==> r == 0.0
    ensures CompletedCount(h) > 0 ==> r * CompletedCount(h) as real == TotalFocusTime(h) as real
  {
    var n := CompletedCount(h);
    if n == 0 then 0.0 else TotalFocusTime(h) as real / n as real
  }

  /** The longest completed session, if there is one. */
  function LongestCompleted(h: seq<FocusSession>): (r: Option<int>)
    ensures r.None? <==> forall i :: 0 <= i < |h| ==> !h[i].isCompleted
    ensures r.Some? ==> exists i :: 0 <= i < |h| && h[i].isCompleted && h[i].duration == r.value
    ensures r.Some? ==> forall i :: 0 <= i < |h| && h[i].isCompleted ==> h[i].duration <= r.value
    decreases |h|
  {
    if |h| == 0 then None
    else
      var init := h[..|h| - 1];
      var last := h[|h| - 1];
      var rest := LongestCompleted(init);
      assert forall i :: 0 <= i < |init| ==> init[i] == h[i];
      if !last.isCompleted then rest
      else match rest
        case None => Some(last.duration)
        case Some(m) => Some(Max(m, last.duration))
  }

  /** `getLongestFocusSession`: `.max() ?? 0` over the completed lengths. */
  function LongestFocusSession(h: seq<FocusSession>): (r: int)
    ensures (forall i :: 0 <= i < |h| ==> !h[i].isCompleted) ==> r == 0
    ensures forall i :: 0 <= i < |h| && h[i].isCompleted ==> h[i].duration <= r
    ensures (exists i :: 0 <= i < |h| && h[i].isCompleted) ==> exists i :: 0 <= i < |h| && h[i].isCompleted && h[i].duration == r
  {
    match LongestCompleted(h)
    case None => 0
    case Some(m) => m
  }

  /** `getFocusSessionsToday`: every session, finished or not, that started today. */
  function FocusSessionsToday(h: seq<FocusSession>, now: int): (r: seq<FocusSession>)
    ensures forall s :: s in r <==> s in h && Day(s.startTime) == Day(now)
  {
    Select(h, OnDay(Day(now)), false)
  }

  /** `clearFocusHistory`: forget every session and zero the figures derived from them. */
  function ClearFocusHistory(st: FocusState): (r: FocusState)
    ensures r.focusHistory == [] && r.totalFocusTimeToday == 0 && r.focusStreak == 0
    ensures r.dailyProgress == 0.0 && r.weeklyProgress == 0.0
    ensures r.currentFocusSession == st.currentFocusSession && r.remainingTime == st.remainingTime
    ensures Valid(st) ==> Valid(r)
  {
    st.(focusHistory := [], totalFocusTimeToday := 0, focusStreak := 0, dailyProgress := 0.0, weeklyProgress := 0.0)
  }

  /** After clearing, every figure the screen derives from the history is zero. */
  lemma ClearedHistoryFigures(st: FocusState, now: int)
    ensures var h := ClearFocusHistory(st).focusHistory;
            && TotalFocusTime(h) == 0 && AverageFocusTime(h) == 0.0 && LongestFocusSession(h) == 0
            && DailyTotal(h, now) == 0 && WeeklyTotal(h, now) == 0 && StreakFrom(h, Day(now)) == 0
  {
  }

  // ---------------------------------------------------------------------------
  // Strings

  /** `getFormattedTime`: "h:mm:ss" from an hour up, "m:ss" below; read back, it is the same number of seconds. */
  function FormattedTime(t: nat): (r: string)
    ensures ReadAmount(r) == t
    ensures Count(r, ':') == (if t >= 3600 then 2 else 1)
    ensures t >= 3600 ==> IsHourMinSec(r)
    ensures t < 3600 ==> IsMinSec(r)
  {
    var hours := t / 3600;
    var minutes := (t % 3600) / 60;
    var seconds := t % 60;
    ClockFields(t);
    if hours > 0 then
      FormattedHms(hours, minutes, seconds);
      HourMinSecShape(hours, minutes, seconds);
      Decimal(hours) + ":" + Pad2(minutes) + ":" + Pad2(seconds)
    else
      FormattedMs(minutes, seconds);
      MinSecShape(minutes, seconds);
      Decimal(minutes) + ":" + Pad2(seconds)
  }

  /** Hours, minutes below 60 and seconds below 60 make up the whole number of seconds. */
  lemma ClockFields(t: nat)
    ensures t == ((t / 3600) * 60 + (t % 3600) / 60) * 60 + t % 60
    ensures (t % 3600) / 60 < 60 && t % 60 < 60
    ensures t / 3600 > 0 <==> t >= 3600
    ensures t / 3600 == 0 ==> (t % 3600) / 60 == t / 60
  {
  }

  lemma FormattedMs(m: nat, s: nat)
    ensures ReadAmount(Decimal(m) + ":" + Pad2(s)) == m * 60 + s
    ensures Count(Decimal(m) + ":" + Pad2(s), ':') == 1
  {
    ReadMinutesSeconds(0, m, s);
    DigitsHaveNoColon(Decimal(m));
    DigitsHaveNoColon(Pad2(s));
    CountAppend(Decimal(m) + ":", Pad2(s), ':');
    CountAppend(Decimal(m), ":", ':');
  }

  lemma FormattedHms(h: nat, m: nat, s: nat)
    ensures ReadAmount(Decimal(h) + ":" + Pad2(m) + ":" + Pad2(s)) == (h * 60 + m) * 60 + s
    ensures Count(Decimal(h) + ":" + Pad2(m) + ":" + Pad2(s), ':') == 2
  {
    HmsReading(h, m, s);
    HmsColons(h, m, s);
  }

  lemma HmsReading(h: nat, m: nat, s: nat)
    ensures ReadAmount(Decimal(h) + ":" + Pad2(m) + ":" + Pad2(s)) == (h * 60 + m) * 60 + s
  {
    var x := Decimal(h) + ":" + Pad2(m);
    ReadMinutesSeconds(0, h, m);
    ReadFromAppend(Reading(0, 0), x, ":" + Pad2(s));
    assert x + ":" + Pad2(s) == x + (":" + Pad2(s));
    ReadFromAppend(Reading(h * 60, m), ":", Pad2(s));
    ReadPad2((h * 60 + m) * 60, s);
  }

  lemma HmsColons(h: nat, m: nat, s: nat)
    ensures Count(Decimal(h) + ":" + Pad2(m) + ":" + Pad2(s), ':') == 2
  {
    var x := Decimal(h) + ":" + Pad2(m);
    FormattedMs(h, m);
    DigitsHaveNoColon(Pad2(s));
    CountAppend(x + ":", Pad2(s), ':');
    CountAppend(x, ":", ':');
  }

  lemma DigitsHaveNoColon(s: string)
    requires forall i :: 0 <= i < |s| ==> IsDigit(s[i])
    ensures Count(s, ':') == 0
  {
    CountNone(s, ':');
  }

  lemma ReadMinSuffix(acc: Reading)
    ensures ReadFrom(acc, " min") == Reading(acc.total + acc.current, 0)
  {
    var s := " min";
    assert s[1..] == "min" && s[1..][1..] == "in" && s[1..][1..][1..] == "n" && s[1..][1..][1..][1..] == "";
  }

  lemma ReadHrSuffix(acc: Reading)
    ensures ReadFrom(acc, " hr") == Reading((acc.total + acc.current) * 60, 0)
    ensures ReadFrom(acc, " hr ") == Reading((acc.total + acc.current) * 60, 0)
  {
    var s := " hr ";
    assert s[1..] == "hr " && s[1..][1..] == "r " && s[1..][1..][1..] == " " && s[1..][1..][1..][1..] == "";
    var u := " hr";
    assert u[1..] == "hr" && u[1..][1..] == "r" && u[1..][1..][1..] == "";
  }

  /** "N min" with N a numeral. */
  predicate IsMinutesText(r: string) {
    |r| >= 5 && IsNumeral(r[..|r| - 4]) && r[|r| - 4..] == " min"
  }

  /** "H hr" with H a numeral. */
  predicate IsHoursText(r: string) {
    |r| >= 4 && IsNumeral(r[..|r| - 3]) && r[|r| - 3..] == " hr"
  }

  /** "H hr M min", where M has one digit, or two with the first at most 5, so M is below 60. */
  predicate IsHoursMinutesText(r: string) {
    exists i :: 0 < i < |r| && HoursMinutesSplit(r, i)
  }

  /** "H hr M min" with the space before M at index i. */
  predicate HoursMinutesSplit(r: string, i: int) {
    && 0 < i < |r| && IsHoursText(r[..i]) && r[i] == ' ' && IsMinutesText(r[i + 1..])
    && (|r| - 4 == i + 2 || (|r| - 4 == i + 3 && r[i + 1] <= '5'))
  }

  lemma MinutesShape(m: nat)
    ensures IsMinutesText(Decimal(m) + " min")
  {
    var r := Decimal(m) + " min";
    DecimalIsNumeral(m);
    assert r[..|r| - 4] == Decimal(m);
  }

  lemma HoursShape(h: nat)
    ensures IsHoursText(Decimal(h) + " hr")
  {
    var r := Decimal(h) + " hr";
    DecimalIsNumeral(h);
    assert r[..|r| - 3] == Decimal(h);
  }

  lemma HoursMinutesShape(h: nat, m: nat)
    requires m < 60
    ensures IsHoursMinutesText(Decimal(h) + " hr " + Decimal(m) + " min")
  {
    HoursShape(h);
    MinutesShape(m);
    MinuteFieldSmall(m);
    Regroup(Decimal(h), Decimal(m));
    JoinHoursMinutes(Decimal(h) + " hr", Decimal(m) + " min");
  }

  /** A number of minutes below 60 has one digit, or two with the first at most 5. */
  lemma MinuteFieldSmall(m: nat)
    requires m < 60
    ensures |Decimal(m)| == 1 || (|Decimal(m)| == 2 && Decimal(m)[0] <= '5')
  {
    if m >= 10 {
      assert Decimal(m / 10) == [DigitChar(m / 10)];
    }
  }

  lemma Regroup(a: string, b: string)
    ensures a + " hr " + b + " min" == (a + " hr") + " " + (b + " min")
  {
  }

  /** An hours text, a space and a minutes text with a small count make an "H hr M min". */
  lemma JoinHoursMinutes(a: string, b: string)
    requires IsHoursText(a) && IsMinutesText(b)
    requires |b| == 5 || (|b| == 6 && b[0] <= '5')
    ensures IsHoursMinutesText(a + " " + b)
  {
    var r := a + " " + b;
    assert r[..|a|] == a;
    assert r[|a| + 1..] == b;
    assert HoursMinutesSplit(r, |a|);
  }

  /**
   * `getFormattedDuration`: "N min" below an hour, else "H hr" on the hour or "H hr M min"
   * with M below 60; read back, it is the whole number of minutes, and it mentions hours
   * exactly from an hour up.
   */
  function FormattedDuration(d: nat): (r: string)
    ensures ReadAmount(r) == d / 60
    ensures 'h' in r <==> d / 60 >= 60
    ensures d / 60 < 60 ==> IsMinutesText(r)
    ensures d / 60 >= 60 && (d / 60) % 60 == 0 ==> IsHoursText(r)
    ensures d / 60 >= 60 && (d / 60) % 60 != 0 ==> IsHoursMinutesText(r)
  {
    var minutes := d / 60;
    if minutes < 60 then
      MinutesReading(minutes);
      Decimal(minutes) + " min"
    else
      var hours := minutes / 60;
      var remainingMinutes := minutes % 60;
      if remainingMinutes == 0 then
        HoursReading(hours);
        Decimal(hours) + " hr"
      else
        HoursMinutesReading(hours, remainingMinutes);
        HoursMinutesShape(hours, remainingMinutes);
        Decimal(hours) + " hr " + Decimal(remainingMinutes) + " min"
  }

  /** "N min" reads back as N minutes and has no hours. */
  lemma MinutesReading(m: nat)
    ensures ReadAmount(Decimal(m) + " min") == m
    ensures 'h' !in Decimal(m) + " min"
    ensures IsMinutesText(Decimal(m) + " min")
  {
    ReadDecimal(0, m);
    ReadFromAppend(Reading(0, 0), Decimal(m), " min");
    ReadMinSuffix(Reading(0, m));
    DecimalHasNoLetters(m);
    MinutesShape(m);
  }

  /** "H hr" reads back as H hours in minutes. */
  lemma HoursReading(h: nat)
    ensures ReadAmount(Decimal(h) + " hr") == h * 60
    ensures 'h' in Decimal(h) + " hr"
    ensures IsHoursText(Decimal(h) + " hr")
  {
    ReadDecimal(0, h);
    ReadFromAppend(Reading(0, 0), Decimal(h), " hr");
    ReadHrSuffix(Reading(0, h));
    assert 'h' == (Decimal(h) + " hr")[|Decimal(h)| + 1];
    HoursShape(h);
  }

  /** "H hr M min" reads back as H hours and M minutes, in minutes. */
  lemma HoursMinutesReading(h: nat, m: nat)
    requires m < 60
    ensures ReadAmount(Decimal(h) + " hr " + Decimal(m) + " min") == h * 60 + m
    ensures 'h' in Decimal(h) + " hr " + Decimal(m) + " min"
  {
    var x := Decimal(h) + " hr ";
    HoursPrefixReading(h);
    ReadFromAppend(Reading(0, 0), x, Decimal(m));
    ReadDecimal(h * 60, m);
    ReadFromAppend(Reading(0, 0), x + Decimal(m), " min");
    ReadMinSuffix(Reading(h * 60, m));
    assert 'h' == (x + Decimal(m) + " min")[|Decimal(h)| + 1];
  }

  lemma HoursPrefixReading(h: nat)
    ensures ReadFrom(Reading(0, 0), Decimal(h) + " hr ") == Reading(h * 60, 0)
  {
    ReadDecimal(0, h);
    ReadFromAppend(Reading(0, 0), Decimal(h), " hr ");
    ReadHrSuffix(Reading(0, h));
  }
}
